=== FILE: README.md ===
# File synchronisation engine — a Dafny model

This project models the synchronisation engine of a one-way file-mirroring
service (`FileSyncService`). A configured task names a source tree and a
destination tree. A run of a task does the following:

1. It claims the task id in a set of running ids. A second run of the same
   task is turned away with no session.
2. It opens a session record in state Running.
3. It checks that the source root exists and makes sure the destination
   root exists.
4. It loads the task's stored fingerprints.
5. It walks the source depth-first:
   - each directory is mirrored at the destination;
   - each file is decided on (copy or skip) by the change detector;
   - a copied file is counted as copied (no prior fingerprint) or updated
     (a prior fingerprint), and its fingerprint is found-or-created and
     refreshed.
6. It prunes every stored path the walk did not visit. The path loses its
   fingerprint, and its destination node is deleted when there is one.
7. It closes the session as Completed with the counters, or as Failed with
   the error.
8. It releases the claim on every path.

The model is functional:

- The destination is a finite map from root-relative paths to nodes.
- The fingerprint table is a sequence of rows.
- The source is seen only through the sequence of entries its walk produces.
- A run is a fold over that sequence followed by a fold over the stored
  paths.
- Failures of creating directories, copying, deleting and hashing are drawn
  from a set of failing operations, a parameter of the run.
- Failures caused by the destination's shape (a file on the way, a directory
  that still has entries) follow from the tree itself.
- An unreadable walk entry is a `VisitFailed` entry of the walk.
- `readAttributes` and `exists` never fail (see "Left out").
- The digest function (SHA-256) and the clock are parameters too.
- The lower-case hex rendering of a digest is modelled exactly.

Modules follow the parts of the engine:

- `Hex`: checksum rendering.
- `FileSystem`: paths, nodes, createDirectories.
- `FingerprintStore`: the table, lookups, upsert, deletions.
- `ChangeDetector`: `shouldCopyFile`.
- `SyncState`: task, environment, counters, run state.
- `Walker`: the visitor.
- `Pruner`: the deletion loop.
- `RunGuard`: the running-id set.
- `SyncEngine`: `executeSync`, `isSyncRunning`, sessions.
- `RunProperties` and `Idempotence`: whole-run properties.
- `ShapeChange`: what a file left where the source now has a directory does to later runs.

The operations on the destination map follow the rules of a file tree. No
invariant that the map is a well-formed tree is stated or proved. Three
operations fail on a node of the wrong kind, and a fourth replaces it:

- `createDirectories` fails with an `IOException` on a file anywhere on its
  way (`FileSyncService.java` lines 93 and 126). The exception is
  `FileAlreadyExistsException` when the path itself is a file.
- Copying over a directory that still has entries fails
  (`DirectoryNotEmptyException`, line 96).
- Deleting such a directory fails too (line 138).
- A copy over an empty directory replaces it.

So a source path that changes kind can block the engine. Take a file from an
earlier run that is left where the source now has a directory. The walk
enters that directory and marks its path processed (line 122), so the prune
pass never deletes the file. The `ShapeChange` module proves two outcomes:

- When the directory has files below it, creating their parent directories
  meets the file, so the run stops in its walk. Each later run over that
  source fails in the same way.
- When it has none, the run can complete. The file and its fingerprint
  outlive the run, and so every later run whose walk enters that directory
  and has no file entry at its path. `WalkKeepsLeaf` shows that the walk
  keeps them whatever its outcome.

Fingerprint rows are keyed by (task, path), but the table carries only a
non-unique index on that pair
(`backend/src/main/java/com/sync/app/entity/FileMetadata.java`, lines 15-17).
So the model states uniqueness as an invariant rather than building it into
the table:

- `FingerprintStore.Unique` states it.
- Every operation is proved to preserve it, so a table that starts free of
  duplicates stays that way.
- A single-row lookup that finds several rows fails the run, as a
  single-result repository query does.
- The prune pass agrees with the code only on a duplicate-free table (see
  "Left out").

## Model

| member | source | states |
|---|---|---|
| ChangeDetector.ShouldCopy | backend/src/main/java/com/sync/app/service/FileSyncService.java:172-201 | A missing or resized destination is always copied. A fingerprint with another mtime forces a copy. With no fingerprint and equal sizes the file is skipped whatever the checksum setting. Once the checksum is consulted, the file is copied iff it differs from the stored one (a stored null never matches). The only failure is a failed checksum computation, and only when it is consulted. The result agrees with the reference predicate `Stale`. |
| ChangeDetector.ChecksumSensitivity | backend/src/main/java/com/sync/app/service/FileSyncService.java:190-198 | With equal size and mtime and a fingerprint holding an earlier digest's checksum, the file is copied exactly when checksums are on and the digest changed. |
| Hex.ByteToHex | backend/src/main/java/com/sync/app/service/FileSyncService.java:220-222 | `%02x` gives two lower-case hex digits: the high nibble, then the low nibble of the unsigned byte. |
| Hex.ToHex | backend/src/main/java/com/sync/app/service/FileSyncService.java:218-223 | The rendering has two characters per digest byte, all lower-case hex digits. |
| Hex.FromHexToHex | backend/src/main/java/com/sync/app/service/FileSyncService.java:218-223 | Parsing the rendering gives back the rendered bytes, so the rendering loses nothing. |
| Hex.ToHexInjective | backend/src/main/java/com/sync/app/service/FileSyncService.java:218-223 | Two byte strings render equally iff they are equal. Comparing checksum strings is therefore comparing digests. |
| Hex.ChecksumOf | backend/src/main/java/com/sync/app/service/FileSyncService.java:206-223 | A SHA-256 checksum is 64 hex digits (it fits the 64-character column) and decodes back to its digest. |
| SyncState.CurrentChecksum | backend/src/main/java/com/sync/app/service/FileSyncService.java:206-227 | Computing the checksum succeeds iff reading the file does not fail. It then gives 64 lower-case hex characters that decode back to the digest of the file's content. Otherwise it gives an I/O error for hashing that file. |
| FileSystem.CreateDirectories | backend/src/main/java/com/sync/app/service/FileSyncService.java:93 | createDirectories succeeds iff no node on the way to the path, the path included, is a file (an `IOException`; `FileAlreadyExistsException` when the path itself is a file). It then adds exactly the missing ancestors, and the path itself, as directories. Every existing node stays as it was, and only directories on the path's way are new. |
| FingerprintStore.RowsAt | backend/src/main/java/com/sync/app/repository/FileMetadataRepository.java:14 | The rows stored for (task, path) are exactly the table's rows with that key. |
| FingerprintStore.FindByTaskAndPath | backend/src/main/java/com/sync/app/service/FileSyncService.java:233-235 | A lookup is Absent iff no row has the key, Found gives a row with the key, and it is Ambiguous iff several rows have it. |
| FingerprintStore.Snapshot | backend/src/main/java/com/sync/app/service/FileSyncService.java:70-73 | The per-path map built from the task's rows has exactly the task's stored paths as keys, each mapped to one of its rows. |
| FingerprintStore.SnapshotOfUnique | backend/src/main/java/com/sync/app/service/FileSyncService.java:70-73 | In a duplicate-free table the map holds a path iff it has one row, and maps it to that row. |
| FingerprintStore.TaskPaths | backend/src/main/java/com/sync/app/service/FileSyncService.java:134 | The prune loop iterates exactly the task's stored paths. |
| FingerprintStore.ReplaceRows | backend/src/main/java/com/sync/app/service/FileSyncService.java:254 | Saving a found entity overwrites the rows of its key, keeping their number. Rows of every other key are kept. |
| FingerprintStore.UpdateFingerprint | backend/src/main/java/com/sync/app/service/FileSyncService.java:232-255 | The upsert succeeds iff the key has at most one row, and then leaves exactly one. That row has the file's size and mtime, the sync time and isDirectory false. Its checksum is the computed one, or the previous one when none was computed. No other row changes, and a duplicate-free table stays duplicate-free. |
| FingerprintStore.UniqueAfterRefresh | backend/src/main/java/com/sync/app/service/FileSyncService.java:254 | Rewriting one key's rows down to a single row keeps the table duplicate-free. |
| FingerprintStore.RowsAtRemovePaths | backend/src/main/java/com/sync/app/service/FileSyncService.java:141 | Deleting a batch of the task's paths empties exactly those keys and keeps every other key's rows. |
| FingerprintStore.UniqueRemovePaths | backend/src/main/java/com/sync/app/service/FileSyncService.java:141 | Deleting fingerprints never creates duplicates. |
| Walker.VisitDirectory | backend/src/main/java/com/sync/app/service/FileSyncService.java:116-130 | The root is passed over untouched. Any other directory is marked processed. The visit fails iff the directory is absent and cannot be created: either the operation fails or there is a file on its way. Otherwise a node exists at the path afterwards, and a file already standing there is left in place. Existing nodes, counters and fingerprints are unchanged, and only directories on the path's way are new. |
| Walker.VisitFile | backend/src/main/java/com/sync/app/service/FileSyncService.java:81-113 | A visit marks the file processed. When it goes on, it adds one to scanned, leaves deleted alone and keeps the counters balanced. A failed visit leaves the table unchanged. Other destination nodes are kept, new nodes are directories on the file's way or the file itself, and uniqueness is preserved. |
| Walker.VisitFileOutcome | backend/src/main/java/com/sync/app/service/FileSyncService.java:86-110 | A file the detector passes over is only counted as scanned and skipped. Any other file the visit gets past is copied with its content and attributes, counted as new exactly when it had no fingerprint (otherwise as updated), its size is added to totalBytes, and its fingerprint is refreshed. |
| Walker.VisitFileHalts | backend/src/main/java/com/sync/app/service/FileSyncService.java:89-107 | A file visit stops only on one of these: hashing, parent creation or copying fails; a file lies on the way to the parent directory; a non-empty directory stands where the file goes; or the fingerprint lookup is ambiguous. |
| Walker.CopyOver | backend/src/main/java/com/sync/app/service/FileSyncService.java:91-107 | The copy goes through iff none of these holds: creating the parent fails, a file lies on the parent's way, copying fails, a non-empty directory stands at the target, or the path has several fingerprints. A copy that goes through puts the source file at the destination, counts it and refreshes its fingerprint. A failed copy leaves the table unchanged. Nodes other than the target are kept, and only directories on the way are new. |
| Walker.CopyInto | backend/src/main/java/com/sync/app/service/FileSyncService.java:96-107 | Copying with REPLACE_EXISTING changes the destination at most by putting the file at the target. A copy that goes through counts the file and refreshes its fingerprint. A failed copy leaves the table unchanged and keeps it duplicate-free. |
| Walker.CopyIntoProceeds | backend/src/main/java/com/sync/app/service/FileSyncService.java:96-107 | Once the parent exists, the copy goes through iff copying does not fail, the target is not a non-empty directory (`DirectoryNotEmptyException`), and the path has at most one fingerprint. |
| Walker.VisitEntry | backend/src/main/java/com/sync/app/service/FileSyncService.java:79-131 | An unreadable entry stops the walk and changes nothing. The root directory changes nothing. Any other entry marks its path processed. New or changed nodes lie on the entry's way and are directories, apart from a file entry's own node. |
| Walker.Walk | backend/src/main/java/com/sync/app/service/FileSyncService.java:79-131 | A walk that goes through met no unreadable entry and marked exactly the entries' paths (except the root) processed. It scanned one per file, deleted nothing and kept the counters balanced. Either way it keeps the table duplicate-free. |
| Pruner.Prune | backend/src/main/java/com/sync/app/service/FileSyncService.java:134-143 | The pass never changes the processed set. It stops only with an I/O error on deleting an unvisited stored path that is still at the destination and cannot be deleted: either the operation fails or the path is a directory with entries (`DirectoryNotEmptyException`). |
| Pruner.PruneCompletes | backend/src/main/java/com/sync/app/service/FileSyncService.java:134-143 | Sufficient condition: the pass completes if every unvisited stored path at the destination can be deleted and has nothing below it. Necessary condition: in a completed pass, every such path could be deleted, and only unvisited stored paths lay below it. |
| Pruner.PruneDeletesOrphanNodes | backend/src/main/java/com/sync/app/service/FileSyncService.java:134-140 | A completed prune pass deletes exactly the destination nodes of the unvisited stored paths. |
| Pruner.PruneRemovesOrphanFingerprints | backend/src/main/java/com/sync/app/service/FileSyncService.java:134-143 | A completed prune pass removes exactly the fingerprints of the unvisited stored paths, whether or not their destination existed. |
| Pruner.PruneCountsDeletions | backend/src/main/java/com/sync/app/service/FileSyncService.java:135-139 | filesDeleted grows by the number of unvisited stored paths that existed at the destination. No other counter changes. |
| SyncEngine.StartGrows | backend/src/main/java/com/sync/app/service/FileSyncService.java:65-67 | Ensuring the destination root keeps every existing node and adds at most the root, as a directory. |
| SyncEngine.Synchronise | backend/src/main/java/com/sync/app/service/FileSyncService.java:56-156 | A missing source root fails the run before anything is touched. A run completes only when its walk and then its prune pass go through, and it ends in the state and with the counters the prune pass leaves. |
| SyncEngine.CompletedRunCounts | backend/src/main/java/com/sync/app/service/FileSyncService.java:145-153 | A completed run reports scanned == copied + updated + skipped, with scanned equal to the number of files walked, and its walk met no unreadable entry. |
| SyncEngine.FinishedRun | backend/src/main/java/com/sync/app/service/FileSyncService.java:131-156 | A run finishes only when its walk and then its prune pass go through. It ends in the state the prune pass leaves. |
| SyncEngine.Finalise | backend/src/main/java/com/sync/app/service/FileSyncService.java:145-163 | Closing a session keeps its task and start and sets its end. It is Completed iff the body finished, and then carries the counters and the scanned-count summary. It is Failed iff the body stopped, and then carries the error and the counters it was opened with. |
| SyncEngine.IsSyncRunning | backend/src/main/java/com/sync/app/service/FileSyncService.java:260-262 | isSyncRunning reads the running set. Its contract lives in BeginSync, SecondRunIsTurnedAway and RunningOnlyWhileClaimed. |
| SyncEngine.BeginSync | backend/src/main/java/com/sync/app/service/FileSyncService.java:45-54 | The run gets in iff the task is not running. Then the task is running, one Running session stamped with the start time is appended, the destination and table are untouched, and no other task's running status changes. |
| SyncEngine.ExecuteSync | backend/src/main/java/com/sync/app/service/FileSyncService.java:44-167 | While the task is running, nothing happens and no session is returned. Otherwise exactly one session is appended and returned, and it is terminal with end ≥ start. The claim is released and the guard ends as it began. A Completed session has balanced counters and no error. A Failed session has an error and zero counters. |
| SyncEngine.ExecuteSyncRecords | backend/src/main/java/com/sync/app/service/FileSyncService.java:145-163 | The session is Completed iff the run body finished, carrying its counters, and Failed with the body's error otherwise. The world keeps the destination and table the body left. |
| SyncEngine.SecondRunIsTurnedAway | backend/src/main/java/com/sync/app/service/FileSyncService.java:45-48 | While a run holds its claim, the task reports as running, and a second executeSync of it returns nothing and changes nothing. |
| SyncEngine.RunningOnlyWhileClaimed | backend/src/main/java/com/sync/app/service/FileSyncService.java:260-262 | After executeSync, isSyncRunning holds iff it held before: a run that was let in always releases its claim. |
| SyncEngine.OtherTasksAreNotBlocked | backend/src/main/java/com/sync/app/service/FileSyncService.java:38-48 | A claim held for one task does not turn away a run of another task. |
| RunGuard.TryClaim | backend/src/main/java/com/sync/app/service/FileSyncService.java:45 | Adding to the running set reports success iff the id was absent. The id is held afterwards, a failed claim changes nothing, and other ids are unaffected. |
| RunGuard.Release | backend/src/main/java/com/sync/app/service/FileSyncService.java:165 | Removing from the running set frees the id and leaves other ids as they were. |
| RunGuard.ClaimThenRelease | backend/src/main/java/com/sync/app/service/FileSyncService.java:164-166 | A successful claim followed by its release restores the guard exactly. |
| RunProperties.CompletedRunPrunesUnvisited | backend/src/main/java/com/sync/app/service/FileSyncService.java:133-143 | In a completed run, the prune set is exactly the paths fingerprinted when the run began minus the paths walked. Those paths lose their fingerprints and destination nodes, and one deletion is counted for each one that existed. Fingerprints of walked paths are kept as the walk left them. |
| RunProperties.PruneKeepsStore | backend/src/main/java/com/sync/app/service/FileSyncService.java:133-143 | Completed or not, the prune pass keeps the table duplicate-free and other tasks' rows intact. |
| RunProperties.WalkKeepsForeignRows | backend/src/main/java/com/sync/app/service/FileSyncService.java:79-131 | Completed or not, the walk leaves other tasks' fingerprints intact. |
| RunProperties.RunKeepsStore | backend/src/main/java/com/sync/app/service/FileSyncService.java:56-143 | Whatever the outcome, a run keeps the table duplicate-free and never touches another task's fingerprints. |
| Idempotence.SettledIsSkipped | backend/src/main/java/com/sync/app/service/FileSyncService.java:172-201 | A file whose destination size and fingerprint (mtime, and checksum when on) match the source is skipped. |
| Idempotence.FirstRunSettles | backend/src/main/java/com/sync/app/service/FileSyncService.java:79-143 | A run with no failures over a walk of distinct, readable entries completes when the destination has a compatible shape. Compatible means four things: no walk entry lies below a walked file; no destination file lies on the way to a walked directory or a walked file's parent; nothing at the destination lies below a walked file; and nothing, at the destination or in the walk, lies below a path whose fingerprint goes stale. The run leaves every walked file settled, every walked directory present and the table duplicate-free, with the task's fingerprints only at walked paths. |
| Idempotence.QuietRun | backend/src/main/java/com/sync/app/service/FileSyncService.java:79-143 | A run over settled files completes having scanned and skipped every file and copied, updated or deleted nothing. The table and every destination node are unchanged. |
| Idempotence.SecondRunChangesNothing | backend/src/main/java/com/sync/app/service/FileSyncService.java:44-167 | Running a task twice over an unchanged source that fits the destination's shape, with nothing failing, completes both times. The second session only scans and skips, and leaves the table and every destination node as the first run left them. |
| ShapeChange.BlockedStep | backend/src/main/java/com/sync/app/service/FileSyncService.java:85-130 | Any entry other than a file at p leaves a childless file at p in place. A file entry below p does not go through, since creating its parent directory meets the file. |
| ShapeChange.WalkBlocked | backend/src/main/java/com/sync/app/service/FileSyncService.java:79-131 | A walk holding a file entry below a childless file at p, and no file entry at p itself, stops and leaves the file at p. |
| ShapeChange.StaleFileBlocksRun | backend/src/main/java/com/sync/app/service/FileSyncService.java:56-156 | A run over such a source fails in its walk and leaves the file at p. |
| ShapeChange.StaleFileFailsEveryRun | backend/src/main/java/com/sync/app/service/FileSyncService.java:44-167 | Through executeSync, such a run is recorded as Failed, and the task is left not running with the file still at p. So every later run over the same source fails too. |
| ShapeChange.DirVisitIsNeverPruned | backend/src/main/java/com/sync/app/service/FileSyncService.java:116-135 | A directory the walk enters, other than the root, is never among the paths the prune pass removes, since entering it marks its path processed. |
| ShapeChange.WalkKeepsLeaf | backend/src/main/java/com/sync/app/service/FileSyncService.java:79-131 | Whatever its outcome, a walk with no file entry at p leaves a childless file at p in place and the task's fingerprints at p unchanged. |
| ShapeChange.StaleFileSurvivesCompletedRun | backend/src/main/java/com/sync/app/service/FileSyncService.java:56-156 | Take a run whose walk enters a directory p and has no file entry at p. If it completes, the childless file at p and the task's fingerprints at p are still there afterwards. |
| ShapeChange.EmptyDirOverFileCompletes | backend/src/main/java/com/sync/app/service/FileSyncService.java:56-156 | An instance: the source has an empty directory d where the destination holds the file d with its fingerprint. With nothing failing, the run completes, and the destination and the table are left exactly as they were. |

## Left out

- Filesystem I/O:
  - `Files.walkFileTree` is a given depth-first sequence of entries.
  - `exists`, `copy`, `createDirectories`, `delete` and `readAttributes` act on a map.
  - Every I/O error of creating directories, copying, deleting or hashing is a member of a set of failing operations. A walk error is an unreadable walk entry.
- The SHA-256 computation and its 8192-byte streaming buffer: the digest is a function parameter. Only the hex rendering is modelled.
- `LocalDateTime` and time-zone conversion: timestamps are integers. All of a run's per-file sync times use the run's start reading, and the session end is start plus an elapsed amount. A stored `lastModified` is assumed to come back from the table exactly as it was written. The source compares it with `equals` (lines 186-190), and the column declares no precision (`FileMetadata.java` lines 37-38). A column that kept fewer fractional digits than the filesystem reports would make that comparison fail for every fingerprinted file, so each run would copy every file again. `Idempotence.FirstRunSettles`, `Idempotence.QuietRun` and `Idempotence.SecondRunChangesNothing` depend on this assumption.
- JPA generated ids: a fingerprint row is identified by its (task, path) pair.
- `@Transactional` (`FileSyncService.java` line 43): executeSync runs in one transaction. The catch at lines 158-163 handles every exception and the method returns normally, so the transaction commits even for a failed run. The model therefore has no rollback: a failed run keeps the fingerprint rows written before the failure, and the filesystem keeps its changes.
- Iteration order of the hash map's key set in the prune loop: the model uses the table order of the task's rows. The order decides which deletions happen before a failing one. For nested unvisited paths, it also decides whether a directory is already empty when its turn comes.
- `ConcurrentHashMap` thread-safety: the running set is a sequential functional value, and interleaved runs are not modelled.
- Directory attributes: a created directory reports size 0 and the run's start time.
- `isDirectory` on fingerprints: only files are fingerprinted, so it is always false.
- Java `long` overflow of the counters: counters are unbounded naturals.
- The session's details text and error message: details holds the file count the summary line formats, and the error is a structured value instead of a message.
- Logging.
- The scheduler, thread dispatch, task CRUD, REST controllers, DTOs and the web frontend: they are outside the engine.
- Idempotence.SecondRunChangesNothing: states that every destination node the first run left is unchanged. It does not state that the second run adds no node. It also assumes a walk that names each path once and has no unreadable entries, and a destination whose shape fits the walk (`Idempotence.Compatible`). Without that, a run can fail on a node of the wrong kind, and the `ShapeChange` lemmas show that this failure repeats.
- Idempotence.FirstRunSettles: assumes the same compatible destination shape, for the same reason.
- Pruner.PruneRemovesOrphanFingerprints: the model removes every row stored for an unvisited path. The loop deletes only the one entity the path's map entry holds (line 141), which is the last row loaded for that path. The two agree on a duplicate-free table, and every operation of the model keeps the table duplicate-free.
- Pruner.PruneCompletes: states a sufficient and a necessary condition, not one if-and-only-if. When unvisited paths are nested, whether a directory can be deleted depends on whether the loop's order reaches the paths below it first.
- SyncEngine.ExecuteSync: the repository saves are assumed never to fail. Two consequences follow:
  - The save of the Running session at line 54 comes after the claim (line 45) but before the `try` (line 56). If it threw, the `finally` at lines 164-166 would not run, and the task would stay claimed for good.
  - If the save at line 156 threw after the counters were set (lines 147-153), the catch at lines 158-163 would save a Failed session that still carries those counters. The model's Failed session always has zero counters.
- SyncEngine.RunningOnlyWhileClaimed: rests on the same assumption. A failing save at line 54 would leave isSyncRunning true for the task, and every later executeSync of it would return null (lines 45-48).
- Walker.VisitFile: assumes that neither tree changes during a run except through the run. Two consequences follow:
  - `Files.readAttributes` on the source and destination (lines 177-178) and `Files.exists` (lines 61, 65, 125, 137 and 173) never fail, and no failing operation stands for them.
  - The checksum computed for the decision (line 196) and the one computed for the fingerprint (line 248) read the same content, so they share one failure. The model cannot express a decision hash that succeeds followed by a refresh hash that fails. In the source, that would keep the old checksum under the new mtime (lines 247-251).
- SyncEngine.ExecuteSync: `end ≥ start` rests on the clock being monotonic (the end is the start plus a non-negative elapsed amount). Two `LocalDateTime.now()` readings of the wall clock can go backwards.

=== FILE: change_detector.dfy ===
/**
  The per-file change decision of the synchronisation engine: given the
  source file's attributes, the destination file's attributes (None when
  there is no destination file), the fingerprint stored by an earlier run
  (None when there is none) and the task's checksum setting, decide whether
  the destination copy must be refreshed. The source's current checksum is
  passed as a computation that may have failed; the decision consults it
  only when the checks before it leave the question open.
*/
module ChangeDetector {
  import opened Common
  import opened Hex
  import opened FileSystem
  import opened FingerprintStore
  import opened SyncState

  /** The decision reaches the checksum comparison: sizes and recorded mtime agree, checksums are on. */
  predicate ConsultsChecksum(src: Attrs, dest: Option<Attrs>, existing: Option<Fingerprint>, useChecksum: bool) {
    && dest.Some? && dest.value.size == src.size
    && existing.Some? && existing.value.lastModified == src.mtime
    && useChecksum
  }

  /**
    Reference statement of staleness: the destination is missing or has
    another size, or a fingerprint exists and records another modification
    time, or checksums are on, a fingerprint exists and its checksum is not
    the current one (a fingerprint without a checksum never matches).
  */
  predicate Stale(src: Attrs, dest: Option<Attrs>, existing: Option<Fingerprint>, useChecksum: bool, current: string) {
    || dest.None?
    || dest.value.size != src.size
    || (existing.Some? && existing.value.lastModified != src.mtime)
    || (useChecksum && existing.Some? && existing.value.checksum != Some(current))
  }

  /** shouldCopyFile. */
  function ShouldCopy<E>(src: Attrs, dest: Option<Attrs>, existing: Option<Fingerprint>, useChecksum: bool,
                         current: Result<string, E>): (r: Result<bool, E>)
    // a missing or resized destination is always copied
    ensures dest.None? || dest.value.size != src.size ==> r == Ok(true)
    // a fingerprint whose mtime is not the source's forces a copy even with equal sizes
    ensures dest.Some? && existing.Some? && existing.value.lastModified != src.mtime ==> r == Ok(true)
    // without a fingerprint, an equal-sized destination is skipped whatever the checksum setting
    ensures dest.Some? && dest.value.size == src.size && existing.None? ==> r == Ok(false)
    // with checksums off, an equal-sized destination whose fingerprint mtime matches is skipped
    ensures (!useChecksum && dest.Some? && dest.value.size == src.size
             && (existing.None? || existing.value.lastModified == src.mtime)) ==> r == Ok(false)
    // once the checksum is consulted, the file is copied iff it differs from the stored one
    ensures ConsultsChecksum(src, dest, existing, useChecksum) && current.Ok? ==>
              r == Ok(existing.value.checksum != Some(current.value))
    // the only failure is a failed checksum computation, and only when it is consulted
    ensures r.Err? <==> ConsultsChecksum(src, dest, existing, useChecksum) && current.Err?
    ensures r.Err? ==> r.error == current.error
    // agreement with the reference statement
    ensures current.Ok? ==> r == Ok(Stale(src, dest, existing, useChecksum, current.value))
  {
    if dest.None? then Ok(true)
    else if src.size != dest.value.size then Ok(true)
    else if existing.Some? && src.mtime != existing.value.lastModified then Ok(true)
    else if useChecksum && existing.Some? then
      match current
      case Ok(c) => Ok(existing.value.checksum != Some(c))  // String.equals(null) is false
      case Err(e) => Err(e)
    else Ok(false)
  }

  /**
    Checksum sensitivity: with equal size and modification time and a
    fingerprint holding the checksum of an earlier digest, turning
    checksums on detects exactly the content changes that change the
    digest; with checksums off nothing is detected.
  */
  lemma ChecksumSensitivity(attrs: Attrs, fp: Fingerprint, before: Digest, now: Digest, useChecksum: bool)
    requires fp.lastModified == attrs.mtime && fp.checksum == Some(ChecksumOf(before))
    ensures ShouldCopy<SyncError>(attrs, Some(attrs), Some(fp), useChecksum, Ok(ChecksumOf(now)))
              == Ok(useChecksum && now != before)
  {
    ToHexInjective(now, before);
  }
}

=== FILE: common.dfy ===
/** Values shared by every part of the synchronisation model. */
module Common {

  /** A value that may be absent (a Java reference that may be null). */
  datatype Option<+T> = None | Some(value: T)

  /** The outcome of an operation that may fail with an error of type E. */
  datatype Result<+T, +E> = Ok(value: T) | Err(error: E)

  /** Identity of a configured synchronisation task (a Java `Long`). */
  type TaskId = int

  /** Looks a key up in a map. */
  function Get<K, V>(m: map<K, V>, k: K): (r: Option<V>)
    ensures r.Some? <==> k in m
    ensures r.Some? ==> r.value == m[k]
  {
    if k in m then Some(m[k]) else None
  }
}

=== FILE: filesystem.dfy ===
/**
  The filesystem as the synchronisation engine sees it. The destination
  tree is a finite map from root-relative paths to nodes; the source tree
  is only ever seen through the depth-first sequence of entries its walk
  produces. Which filesystem operations fail is a parameter of a run (a
  set of failing operations), standing for every I/O error the platform
  may raise.
*/
module FileSystem {
  import opened Common
  import opened Hex

  /** A root-relative path as its sequence of names; [] is the root itself. */
  type Path = seq<string>

  /** The attributes the engine reads: size in bytes and last-modified time. */
  datatype Attrs = Attrs(size: nat, mtime: int)

  /** A destination node. Directories carry the attributes the platform reports for them. */
  datatype Node = DirNode(attrs: Attrs) | FileNode(attrs: Attrs, data: seq<byte>)

  /** The destination tree below (and including, at []) the destination root. */
  type Tree = map<Path, Node>

  /** A regular file of the source tree: its attributes and its content. */
  datatype SourceFile = SourceFile(attrs: Attrs, data: seq<byte>)

  /**
    One event of the depth-first source walk: a directory entered (the
    root has path []), a file visited, or an entry whose attributes could
    not be read, which the walk reports as an error.
  */
  datatype WalkEntry =
    | DirVisit(path: Path)
    | FileVisit(path: Path, file: SourceFile)
    | VisitFailed(path: Path)

  /** The destination-side (and hashing) operations that can fail with an I/O error. */
  datatype IoOp =
    | MakeDirs(path: Path)
    | CopyTo(path: Path)
    | HashOf(path: Path)
    | DeleteAt(path: Path)

  /** The directory holding p (the root's parent is taken to be the root). */
  function Parent(p: Path): Path {
    if |p| == 0 then [] else p[..|p| - 1]
  }

  /** p itself and every directory above it, up to and including the root. */
  function Ancestry(p: Path): set<Path> {
    set k | 0 <= k <= |p| :: p[..k]
  }

  /** a is p itself or a directory above it. */
  predicate PrefixOf(a: Path, p: Path) {
    |a| <= |p| && p[..|a|] == a
  }

  /** q lies strictly inside the directory a. */
  predicate Below(a: Path, q: Path) {
    |a| < |q| && q[..|a|] == a
  }

  /** Every node that exists on the way from the root down to p, p included, is a directory. */
  predicate DirsAlong(t: Tree, p: Path) {
    forall k :: 0 <= k <= |p| && p[..k] in t ==> t[p[..k]].DirNode?
  }

  /** Nothing at the destination lies below p (p is a file, an empty directory, or absent). */
  predicate Childless(t: Tree, p: Path) {
    forall q :: q in t ==> !Below(p, q)
  }

  /**
    t' differs from t only along p: every node that is new or changed lies
    on p's way from the root, and is a directory unless it is p itself and
    leaf allows a file there.
  */
  predicate GrowsAlong(t: Tree, t': Tree, p: Path, leaf: bool) {
    forall q :: q in t' && !(q in t && t'[q] == t[q]) ==> PrefixOf(q, p) && (t'[q].DirNode? || (leaf && q == p))
  }

  lemma PrefixCases(a: Path, q: Path)
    requires PrefixOf(a, q)
    ensures a == q || Below(a, q)
  {
    if |a| == |q| {
      assert q[..|q|] == q;
    }
  }

  lemma PrefixOfParent(a: Path, q: Path)
    requires PrefixOf(a, Parent(q))
    ensures PrefixOf(a, q)
  {
    if |q| > 0 {
      assert q[..|a|] == q[..|q| - 1][..|a|];
    }
  }

  lemma BelowPrefix(a: Path, d: Path, p: Path)
    requires Below(a, d) && PrefixOf(d, p)
    ensures Below(a, p)
  {
    assert p[..|a|] == p[..|d|][..|a|];
  }

  /**
    Files.createDirectories: creates p and every missing directory above it,
    stamping new directories with the given attributes, and never touching
    an existing node. It fails (FileAlreadyExistsException) when a node on
    the way, p included, exists but is not a directory.
  */
  function CreateDirectories(t: Tree, p: Path, stamp: Attrs): (r: Option<Tree>)
    ensures r.Some? <==> DirsAlong(t, p)
    ensures r.Some? ==> r.value.Keys == t.Keys + Ancestry(p)
    ensures r.Some? ==> forall q :: q in t ==> q in r.value && r.value[q] == t[q]
    ensures r.Some? ==> forall q :: q in r.value && q !in t ==> q in Ancestry(p) && r.value[q] == DirNode(stamp)
    ensures r.Some? ==> p in r.value && r.value[p].DirNode? && DirsAlong(r.value, p)
    ensures r.Some? ==> GrowsAlong(t, r.value, p, false)
  {
    if DirsAlong(t, p) then
      var t' := t + map q | q in Ancestry(p) && q !in t :: DirNode(stamp);
      assert p[..|p|] == p && p[..0] == [];
      assert forall q :: q in Ancestry(p) ==> PrefixOf(q, p) by {
        forall q | q in Ancestry(p) ensures PrefixOf(q, p) {
          var k :| 0 <= k <= |p| && q == p[..k];
        }
      }
      Some(t')
    else None
  }
}

=== FILE: fingerprint_store.dfy ===
/**
  The fingerprint store: the persisted table of per-file fingerprints,
  every row tagged with the task it belongs to and the file's path
  relative to the task's source root. The table does not enforce that a
  (task, path) pair has at most one row; `Unique` states that invariant
  and the operations here are shown to preserve it. A row is identified
  by its (task, path) pair.
*/
module FingerprintStore {
  import opened Common
  import opened FileSystem

  /** The last known state of one synchronised file. */
  datatype Fingerprint = Fingerprint(
    task: TaskId,
    path: Path,
    size: nat,
    lastModified: int,
    checksum: Option<string>,
    lastSynced: int,
    isDirectory: bool)

  /** The stored rows, in table order. */
  type Table = seq<Fingerprint>

  /** What a lookup by (task, path) finds: nothing, one row, or more than one. */
  datatype Lookup = Absent | Found(row: Fingerprint) | Ambiguous

  predicate Keyed(r: Fingerprint, task: TaskId, path: Path) {
    r.task == task && r.path == path
  }

  function Last(t: Table): Fingerprint
    requires |t| > 0
  {
    t[|t| - 1]
  }

  function Init(t: Table): Table
    requires |t| > 0
  {
    t[..|t| - 1]
  }

  /** The rows stored for (task, path), in table order. */
  function RowsAt(t: Table, task: TaskId, path: Path): (rows: Table)
    ensures forall r :: r in rows <==> r in t && Keyed(r, task, path)
    ensures |rows| <= |t|
  {
    if |t| == 0 then []
    else RowsAt(Init(t), task, path) + (if Keyed(Last(t), task, path) then [Last(t)] else [])
  }

  /** Every row except those stored for (task, path), in table order. */
  function Without(t: Table, task: TaskId, path: Path): (rest: Table)
    ensures |rest| + |RowsAt(t, task, path)| == |t|
  {
    if |t| == 0 then []
    else Without(Init(t), task, path) + (if Keyed(Last(t), task, path) then [] else [Last(t)])
  }

  /** Each (task, path) pair has at most one fingerprint. */
  ghost predicate Unique(t: Table) {
    forall task, path :: |RowsAt(t, task, path)| <= 1
  }

  /** Rows for another key are the same whether or not the rows for (task, path) are removed. */
  lemma {:induction false} RowsAtWithout(t: Table, task: TaskId, path: Path, task': TaskId, path': Path)
    requires task != task' || path != path'
    ensures RowsAt(Without(t, task, path), task', path') == RowsAt(t, task', path')
    decreases |t|
  {
    if |t| > 0 {
      var x := Last(t);
      var w0 := Without(Init(t), task, path);
      RowsAtWithout(Init(t), task, path, task', path');
      if Keyed(x, task, path) {
        assert Without(t, task, path) == w0;
        assert RowsAt(t, task', path') == RowsAt(Init(t), task', path');
      } else {
        var w := w0 + [x];
        assert Without(t, task, path) == w;
        assert Init(w) == w0 && Last(w) == x;
        assert RowsAt(w, task', path') == RowsAt(w0, task', path') + (if Keyed(x, task', path') then [x] else []);
      }
    }
  }

  /** Two tables that agree once (task, path) is removed agree on every other key. */
  lemma SameElsewhere(t: Table, t': Table, task: TaskId, path: Path)
    requires Without(t, task, path) == Without(t', task, path)
    ensures forall k, p :: (k != task || p != path) ==> RowsAt(t', k, p) == RowsAt(t, k, p)
  {
    forall k, p | k != task || p != path
      ensures RowsAt(t', k, p) == RowsAt(t, k, p)
    {
      RowsAtWithout(t, task, path, k, p);
      RowsAtWithout(t', task, path, k, p);
    }
  }

  /** findBySyncTaskAndFilePath: a single-result query, which fails when several rows match. */
  function FindByTaskAndPath(t: Table, task: TaskId, path: Path): (r: Lookup)
    ensures r.Absent? <==> (forall x :: x in t ==> !Keyed(x, task, path))
    ensures r.Found? ==> r.row in t && Keyed(r.row, task, path)
    ensures r.Ambiguous? <==> |RowsAt(t, task, path)| > 1
  {
    var rows := RowsAt(t, task, path);
    if |rows| == 0 then Absent
    else if |rows| == 1 then
      assert rows[0] in rows;
      Found(rows[0])
    else
      assert rows[0] in rows;
      Ambiguous
  }

  /**
    The per-path lookup built from a task's rows (findBySyncTask): each row is put under
    its path in table order, so a later row for the same path replaces an
    earlier one.
  */
  function Snapshot(t: Table, task: TaskId): (m: map<Path, Fingerprint>)
    ensures forall p :: p in m <==> |RowsAt(t, task, p)| > 0
    ensures forall p :: p in m ==> m[p] in RowsAt(t, task, p)
  {
    if |t| == 0 then map[]
    else
      var m := Snapshot(Init(t), task);
      var r := Last(t);
      if r.task == task then m[r.path := r] else m
  }

  /** Under Unique, the snapshot entry of a path is the path's one stored row. */
  lemma SnapshotOfUnique(t: Table, task: TaskId, p: Path)
    requires Unique(t)
    ensures p in Snapshot(t, task) <==> |RowsAt(t, task, p)| == 1
    ensures p in Snapshot(t, task) ==> Snapshot(t, task)[p] == RowsAt(t, task, p)[0]
  {
    var rows := RowsAt(t, task, p);
    assert |rows| <= 1;
    if p in Snapshot(t, task) {
      var x := Snapshot(t, task)[p];
      assert x in rows;
      assert |rows| == 1 && rows == [rows[0]];
    }
  }

  /** The paths of a task's rows, in table order: the iteration order of the prune pass. */
  function TaskPaths(t: Table, task: TaskId): (ps: seq<Path>)
    ensures forall p :: p in ps <==> |RowsAt(t, task, p)| > 0
  {
    if |t| == 0 then []
    else
      var ps := TaskPaths(Init(t), task);
      assert forall p :: |RowsAt(t, task, p)| > 0 <==>
        |RowsAt(Init(t), task, p)| > 0 || Keyed(Last(t), task, p);
      ps + (if Last(t).task == task then [Last(t).path] else [])
  }

  /** A fresh entity: no checksum and not a directory until the engine fills it in. */
  function NewFingerprint(task: TaskId, path: Path): Fingerprint {
    Fingerprint(task, path, 0, 0, None, 0, false)
  }

  /**
    The entity after the engine has written a copied file's attributes into
    it; a checksum that was not computed (or whose computation failed)
    leaves the entity's previous checksum in place.
  */
  function Refreshed(base: Fingerprint, task: TaskId, path: Path, attrs: Attrs, now: int,
                     checksum: Option<string>): Fingerprint
  {
    base.(task := task, path := path, size := attrs.size, lastModified := attrs.mtime,
          lastSynced := now, isDirectory := false,
          checksum := if checksum.Some? then checksum else base.checksum)
  }

  /** Overwrites every row stored for (task, path) with row. */
  function ReplaceRows(t: Table, task: TaskId, path: Path, row: Fingerprint): (r: Table)
    requires Keyed(row, task, path)
    ensures |RowsAt(r, task, path)| == |RowsAt(t, task, path)|
    ensures forall x :: x in RowsAt(r, task, path) ==> x == row
    ensures Without(r, task, path) == Without(t, task, path)
  {
    if |t| == 0 then []
    else
      var init := ReplaceRows(Init(t), task, path, row);
      var r := init + [if Keyed(Last(t), task, path) then row else Last(t)];
      assert Init(r) == init;
      r
  }

  /** The checksum a refresh falls back on: the one row's checksum, or none for a new row. */
  function PriorChecksum(t: Table, task: TaskId, path: Path): Option<string> {
    var rows := RowsAt(t, task, path);
    if |rows| == 1 then rows[0].checksum else None
  }

  /**
    updateFileMetadata: find the row for (task, path) or create one, write
    the file's size, modification time, sync time and (when given) checksum,
    and save it. None when the lookup is ambiguous.
  */
  function UpdateFingerprint(t: Table, task: TaskId, path: Path, attrs: Attrs, now: int,
                             checksum: Option<string>): (r: Option<Table>)
    ensures r.Some? <==> |RowsAt(t, task, path)| <= 1
    ensures r.Some? ==> |RowsAt(r.value, task, path)| == 1
    ensures r.Some? ==>
      var row := RowsAt(r.value, task, path)[0];
      && row.size == attrs.size && row.lastModified == attrs.mtime
      && row.lastSynced == now && !row.isDirectory
      && row.checksum == (if checksum.Some? then checksum else PriorChecksum(t, task, path))
    ensures r.Some? ==> Without(r.value, task, path) == Without(t, task, path)
    ensures Unique(t) ==> r.Some? && Unique(r.value)
  {
    match FindByTaskAndPath(t, task, path)
    case Ambiguous => None
    case Absent =>
      var row := Refreshed(NewFingerprint(task, path), task, path, attrs, now, checksum);
      var t' := t + [row];
      assert Init(t') == t;
      assert RowsAt(t', task, path) == [row];
      assert Without(t', task, path) == Without(t, task, path);
      UniqueAfterRefresh(t, t', task, path);
      Some(t')
    case Found(prior) =>
      var row := Refreshed(prior, task, path, attrs, now, checksum);
      var t' := ReplaceRows(t, task, path, row);
      assert RowsAt(t', task, path)[0] in RowsAt(t', task, path);
      assert prior in RowsAt(t, task, path);
      UniqueAfterRefresh(t, t', task, path);
      Some(t')
  }

  /** Rewriting only the rows of one key, down to a single row, keeps the table unique. */
  lemma UniqueAfterRefresh(t: Table, t': Table, task: TaskId, path: Path)
    requires Without(t', task, path) == Without(t, task, path)
    requires |RowsAt(t', task, path)| == 1
    ensures Unique(t) ==> Unique(t')
  {
    SameElsewhere(t, t', task, path);
  }

  /** Every row except those of the given task whose path is in ps (the prune pass's deletions). */
  function RemovePaths(t: Table, task: TaskId, ps: set<Path>): (r: Table)
  {
    if |t| == 0 then []
    else
      RemovePaths(Init(t), task, ps)
        + (if Last(t).task == task && Last(t).path in ps then [] else [Last(t)])
  }

  /** Deleting one more path's rows after a batch of deletions is one larger batch. */
  lemma {:induction false} WithoutRemovePaths(t: Table, task: TaskId, ps: set<Path>, p: Path)
    ensures Without(RemovePaths(t, task, ps), task, p) == RemovePaths(t, task, ps + {p})
    decreases |t|
  {
    if |t| > 0 {
      WithoutRemovePaths(Init(t), task, ps, p);
      var x := Last(t);
      var r0 := RemovePaths(Init(t), task, ps);
      var big0 := RemovePaths(Init(t), task, ps + {p});
      assert big0 == Without(r0, task, p);
      if x.task == task && x.path in ps {
        assert RemovePaths(t, task, ps) == r0 + [];
        assert RemovePaths(t, task, ps + {p}) == big0 + [];
        assert r0 + [] == r0 && big0 + [] == big0;
      } else {
        assert RemovePaths(t, task, ps) == r0 + [x];
        WithoutSnoc(r0, x, task, p);
        var tail := if Keyed(x, task, p) then [] else [x];
        assert RemovePaths(t, task, ps + {p}) == big0 + tail;
      }
    }
  }

  lemma WithoutSnoc(t: Table, x: Fingerprint, task: TaskId, path: Path)
    ensures Without(t + [x], task, path) == Without(t, task, path) + (if Keyed(x, task, path) then [] else [x])
  {
    assert Init(t + [x]) == t;
  }

  lemma {:induction false} RemoveNothing(t: Table, task: TaskId)
    ensures RemovePaths(t, task, {}) == t
    decreases |t|
  {
    if |t| > 0 {
      RemoveNothing(Init(t), task);
      assert RemovePaths(t, task, {}) == RemovePaths(Init(t), task, {}) + [Last(t)];
      InitLast(t);
    }
  }

  /** A non-empty table is its rows but the last, then the last. */
  lemma InitLast(t: Table)
    requires |t| > 0
    ensures Init(t) + [Last(t)] == t
  {
    var u := Init(t) + [Last(t)];
    assert |u| == |t|;
    forall i | 0 <= i < |t| ensures u[i] == t[i] {
      if i < |t| - 1 {
        assert u[i] == Init(t)[i];
      }
    }
  }

  /** Rows of a key not in the removed batch are kept as they were. */
  lemma {:induction false} RowsAtRemovePaths(t: Table, task: TaskId, ps: set<Path>, k: TaskId, p: Path)
    ensures RowsAt(RemovePaths(t, task, ps), k, p) == if k == task && p in ps then [] else RowsAt(t, k, p)
    decreases |t|
  {
    if |t| > 0 {
      var x := Last(t);
      var r0 := RemovePaths(Init(t), task, ps);
      RowsAtRemovePaths(Init(t), task, ps, k, p);
      if x.task == task && x.path in ps {
        assert RemovePaths(t, task, ps) == r0;
      } else {
        var r := r0 + [x];
        assert RemovePaths(t, task, ps) == r;
        assert Init(r) == r0 && Last(r) == x;
        assert RowsAt(r, k, p) == RowsAt(r0, k, p) + (if Keyed(x, k, p) then [x] else []);
      }
    }
  }

  /** Removing rows never breaks uniqueness. */
  lemma UniqueRemovePaths(t: Table, task: TaskId, ps: set<Path>)
    requires Unique(t)
    ensures Unique(RemovePaths(t, task, ps))
  {
    forall k, p ensures |RowsAt(RemovePaths(t, task, ps), k, p)| <= 1 {
      RowsAtRemovePaths(t, task, ps, k, p);
    }
  }
}

=== FILE: hex.dfy ===
/**
  Lower-case hexadecimal rendering of a content digest, as the checksum
  column of a fingerprint stores it: every byte becomes exactly two
  characters from "0123456789abcdef", most significant nibble first.
  The digest algorithm itself (SHA-256) is not modelled; a digest is any
  32-byte sequence.
*/
module Hex {
  import opened Common

  /** An unsigned byte. Java's formatter renders a negative `byte` as its value plus 256. */
  newtype byte = x: int | 0 <= x < 256

  /** Length in bytes of a SHA-256 digest. */
  const DigestLength: nat := 32

  type Digest = d: seq<byte> | |d| == DigestLength witness seq(32, _ => 0 as byte)

  /** The character "0123456789abcdef"[k]. */
  function DigitChar(k: nat): char
    requires k < 16
  {
    if k < 10 then ('0' as int + k) as char else ('a' as int + k - 10) as char
  }

  predicate IsHexDigit(c: char) {
    '0' <= c <= '9' || 'a' <= c <= 'f'
  }

  /** The value of a lower-case hexadecimal digit, or None for any other character. */
  function DigitValue(c: char): (r: Option<nat>)
    ensures r.Some? <==> IsHexDigit(c)
    ensures r.Some? ==> r.value < 16 && DigitChar(r.value) == c
  {
    if '0' <= c <= '9' then Some(c as int - '0' as int)
    else if 'a' <= c <= 'f' then Some(c as int - 'a' as int + 10)
    else None
  }

  /** Two digits for one byte (the `%02x` format). */
  function ByteToHex(b: byte): (s: string)
    ensures |s| == 2 && IsHexDigit(s[0]) && IsHexDigit(s[1])
    ensures DigitValue(s[0]) == Some(b as int / 16) && DigitValue(s[1]) == Some(b as int % 16)
  {
    [DigitChar(b as int / 16), DigitChar(b as int % 16)]
  }

  /** Concatenated two-digit renderings of every byte, in order. */
  function ToHex(bs: seq<byte>): (s: string)
    ensures |s| == 2 * |bs|
    ensures forall i :: 0 <= i < |s| ==> IsHexDigit(s[i])
  {
    if |bs| == 0 then "" else ByteToHex(bs[0]) + ToHex(bs[1..])
  }

  /** Parses a rendering back into bytes; None for an odd length or a foreign character. */
  function FromHex(s: string): Option<seq<byte>>
    decreases |s|
  {
    if |s| == 0 then Some([])
    else if |s| == 1 then None
    else match (DigitValue(s[0]), DigitValue(s[1]), FromHex(s[2..]))
      case (Some(hi), Some(lo), Some(rest)) => Some([(hi * 16 + lo) as byte] + rest)
      case _ => None
  }

  /** Parsing a rendering gives back the bytes that were rendered. */
  lemma {:induction false} FromHexToHex(bs: seq<byte>)
    ensures FromHex(ToHex(bs)) == Some(bs)
    decreases |bs|
  {
    if |bs| > 0 {
      var s := ToHex(bs);
      assert s == ByteToHex(bs[0]) + ToHex(bs[1..]);
      assert s[2..] == ToHex(bs[1..]);
      FromHexToHex(bs[1..]);
      var b := bs[0] as int;
      assert (b / 16) * 16 + b % 16 == b;
      assert [bs[0]] + bs[1..] == bs;
    }
  }

  /** Two digests render to the same checksum only when they are equal. */
  lemma ToHexInjective(a: seq<byte>, b: seq<byte>)
    ensures ToHex(a) == ToHex(b) <==> a == b
  {
    if ToHex(a) == ToHex(b) {
      FromHexToHex(a);
      FromHexToHex(b);
    }
  }

  /** The checksum string of a digest: 64 lower-case hex digits, fitting the 64-character column. */
  function ChecksumOf(d: Digest): (s: string)
    ensures |s| == 2 * DigestLength
    ensures forall i :: 0 <= i < |s| ==> IsHexDigit(s[i])
    ensures FromHex(s) == Some(d)
  {
    FromHexToHex(d);
    ToHex(d)
  }
}

=== FILE: idempotence.dfy ===
/**
  Repeating a run. When nothing fails and the source does not change
  between two runs, the first run leaves every file settled (its
  destination copy has the source's size and its fingerprint records the
  source's modification time and checksum), so the second run skips
  every file, prunes nothing and leaves the fingerprint table as it was.
*/
module Idempotence {
  import opened Common
  import opened Hex
  import opened FileSystem
  import opened FingerprintStore
  import opened ChangeDetector
  import opened SyncState
  import opened Walker
  import opened Pruner
  import opened SyncEngine
  import opened RunProperties

  /** No two walk entries name the same path (a file tree walk visits each path once). */
  predicate DistinctPaths(walk: seq<WalkEntry>) {
    forall i, j :: 0 <= i < j < |walk| ==> walk[i].path != walk[j].path
  }

  /** Every entry of the walk could be read. */
  predicate Readable(walk: seq<WalkEntry>) {
    forall i :: 0 <= i < |walk| ==> !walk[i].VisitFailed?
  }

  /**
    The change detector passes over file f at p: the destination holds a
    node of f's size, and p has at most one fingerprint, which records f's
    modification time and, with checksums on, f's checksum.
  */
  predicate Settled(env: Env, task: Task, dest: Tree, store: Table, p: Path, f: SourceFile) {
    && p in dest && dest[p].attrs.size == f.attrs.size
    && |RowsAt(store, task.id, p)| <= 1
    && (|RowsAt(store, task.id, p)| == 1 ==>
          && RowsAt(store, task.id, p)[0].lastModified == f.attrs.mtime
          && (task.useChecksum ==> RowsAt(store, task.id, p)[0].checksum == Some(ChecksumOf(env.digest(f.data)))))
  }

  /** Every file among the entries is settled. */
  predicate AllSettled(env: Env, task: Task, dest: Tree, store: Table, entries: seq<WalkEntry>) {
    forall i :: 0 <= i < |entries| && entries[i].FileVisit? ==>
      Settled(env, task, dest, store, entries[i].path, entries[i].file)
  }

  /** No entry of the walk lies below a file of the walk: a tree walk descends only into directories. */
  predicate FilesAreLeaves(walk: seq<WalkEntry>) {
    forall i, j :: 0 <= i < |walk| && 0 <= j < |walk| && walk[i].FileVisit? ==> !Below(walk[i].path, walk[j].path)
  }

  /**
    The destination has room for the entry: only directories on the way to
    a directory, only directories on the way to a file's parent, and
    nothing below the file itself.
  */
  predicate Fits(dest: Tree, e: WalkEntry) {
    match e
    case DirVisit(p) => DirsAlong(dest, p)
    case FileVisit(p, _) => DirsAlong(dest, Parent(p)) && Childless(dest, p)
    case VisitFailed(_) => true
  }

  /** The destination has room for every one of the entries. */
  predicate AllFit(dest: Tree, entries: seq<WalkEntry>) {
    forall i :: 0 <= i < |entries| ==> Fits(dest, entries[i])
  }

  /** Nothing at the destination lies below any of the paths. */
  predicate AllChildless(dest: Tree, paths: set<Path>) {
    forall p :: p in paths ==> Childless(dest, p)
  }

  /** No entry of the walk lies below any of the paths. */
  predicate AboveNoEntry(paths: set<Path>, walk: seq<WalkEntry>) {
    forall p, j :: p in paths && 0 <= j < |walk| ==> !Below(p, walk[j].path)
  }

  /**
    A destination of a shape the run can mirror the source into: the walk
    is that of a tree, the destination has room for each of its entries,
    and nothing, neither at the destination nor in the walk, lies below a
    path whose fingerprint goes stale.
  */
  predicate Compatible(dest: Tree, store: Table, task: Task, env: Env) {
    && FilesAreLeaves(env.walk)
    && AllFit(dest, env.walk)
    && AllChildless(dest, StaleEntries(store, task, env))
    && AboveNoEntry(StaleEntries(store, task, env), env.walk)
  }

  /** Every directory among the entries, the root aside, exists at the destination. */
  predicate DirsMirrored(dest: Tree, entries: seq<WalkEntry>) {
    forall i :: 0 <= i < |entries| && entries[i].DirVisit? && entries[i].path != [] ==> entries[i].path in dest
  }

  /** Outside the touched paths, the task's fingerprints are still those of the earlier table. */
  ghost predicate UntouchedOutside(store: Table, earlier: Table, id: TaskId, touched: set<Path>) {
    forall q :: q !in touched ==> RowsAt(store, id, q) == RowsAt(earlier, id, q)
  }

  /** A settled file is not copied. */
  lemma SettledIsSkipped(env: Env, task: Task, dest: Tree, store: Table, p: Path, f: SourceFile)
    requires HashOf(p) !in env.faults && Unique(store)
    requires Settled(env, task, dest, store, p, f)
    ensures ShouldCopy(f.attrs, DestAttrs(dest, p), Get(Snapshot(store, task.id), p), task.useChecksum,
                       CurrentChecksum(env, p, f.data)) == Ok(false)
  {
    SnapshotOfUnique(store, task.id, p);
  }

  /** The paths the walk marks as visited are paths of its entries. */
  lemma {:induction false} VisitsAreEntryPaths(entries: seq<WalkEntry>, q: Path)
    requires q in Visits(entries)
    ensures exists i :: 0 <= i < |entries| && entries[i].path == q
  {
    if q !in (if entries[0].FileVisit? || (entries[0].DirVisit? && entries[0].path != []) then {entries[0].path} else {}) {
      VisitsAreEntryPaths(entries[1..], q);
      var i :| 0 <= i < |entries[1..]| && entries[1..][i].path == q;
      assert entries[i + 1].path == q;
    }
  }

  /** Every file of the walk, and every directory but the root, is visited. */
  lemma {:induction false} FilesAreVisited(entries: seq<WalkEntry>, i: nat)
    requires i < |entries| && (entries[i].FileVisit? || (entries[i].DirVisit? && entries[i].path != []))
    ensures entries[i].path in Visits(entries)
  {
    if i > 0 {
      FilesAreVisited(entries[1..], i - 1);
    }
  }

  /** Visiting one more entry adds its path, unless it is a file or the root directory. */
  lemma {:induction false} VisitsSnoc(entries: seq<WalkEntry>, e: WalkEntry)
    ensures Visits(entries + [e])
         == Visits(entries) + (if e.FileVisit? || (e.DirVisit? && e.path != []) then {e.path} else {})
  {
    if |entries| == 0 {
      assert entries + [e] == [e];
      assert [e][1..] == [];
    } else {
      assert (entries + [e])[1..] == entries[1..] + [e];
      VisitsSnoc(entries[1..], e);
    }
  }

  /**
    In a run without failures, a file whose fingerprints are still those
    the run started with comes out of its visit settled.
  */
  lemma FirstVisitSettles(env: Env, task: Task, store0: Table, st: RunState, p: Path, f: SourceFile)
    requires env.faults == {} && Unique(store0) && Unique(st.store)
    requires DirsAlong(st.dest, Parent(p)) && Childless(st.dest, p)
    requires RowsAt(st.store, task.id, p) == RowsAt(store0, task.id, p)
    ensures var r := VisitFile(env, task, Snapshot(store0, task.id), st, p, f);
      r.Proceed? && Settled(env, task, r.state.dest, r.state.store, p, f)
  {
    var snap := Snapshot(store0, task.id);
    VisitFileOutcome(env, task, snap, st, p, f);
    VisitFileHalts(env, task, snap, st, p, f);
    SnapshotOfUnique(store0, task.id, p);
  }

  /** What a file visit of the first run leaves alone: other paths' nodes and fingerprints. */
  lemma FirstVisitFrame(env: Env, task: Task, store0: Table, st: RunState, p: Path, f: SourceFile)
    requires env.faults == {} && Unique(st.store)
    ensures var r := VisitFile(env, task, Snapshot(store0, task.id), st, p, f);
      forall q :: q != p ==> RowsAt(r.state.store, task.id, q) == RowsAt(st.store, task.id, q)
  {
    var snap := Snapshot(store0, task.id);
    var r := VisitFile(env, task, snap, st, p, f);
    VisitFileOutcome(env, task, snap, st, p, f);
    VisitFileHalts(env, task, snap, st, p, f);
    if r.state.store != st.store {
      SameElsewhere(st.store, r.state.store, task.id, p);
    }
  }

  /**
    The first run's invariant after the entries done: the table is free of
    duplicates, every file done is settled, every directory done exists,
    and the task's fingerprints at paths not yet visited are still those
    the run started with.
  */
  ghost predicate FirstRunSoFar(env: Env, task: Task, store0: Table, st: RunState, done: seq<WalkEntry>) {
    && Unique(st.store)
    && AllSettled(env, task, st.dest, st.store, done)
    && DirsMirrored(st.dest, done)
    && UntouchedOutside(st.store, store0, task.id, Visits(done))
  }

  /** One entry of the first run keeps the walk invariant. */
  lemma FirstStep(env: Env, task: Task, store0: Table, st: RunState, done: seq<WalkEntry>, e: WalkEntry)
    requires env.faults == {} && Unique(store0)
    requires !e.VisitFailed? && Fits(st.dest, e)
    requires forall i :: 0 <= i < |done| ==> done[i].path != e.path
    requires FirstRunSoFar(env, task, store0, st, done)
    ensures var r := VisitEntry(env, task, Snapshot(store0, task.id), st, e);
      r.Proceed? && FirstRunSoFar(env, task, store0, r.state, done + [e])
  {
    VisitsSnoc(done, e);
    if e.FileVisit? {
      FirstFileStep(env, task, store0, st, done, e);
    } else {
      FirstDirStep(env, task, store0, st, done, e);
    }
  }

  /** A file entry of the first run settles the file and keeps the others settled. */
  lemma FirstFileStep(env: Env, task: Task, store0: Table, st: RunState, done: seq<WalkEntry>, e: WalkEntry)
    requires env.faults == {} && Unique(store0) && e.FileVisit? && Fits(st.dest, e)
    requires forall i :: 0 <= i < |done| ==> done[i].path != e.path
    requires FirstRunSoFar(env, task, store0, st, done)
    requires Visits(done + [e]) == Visits(done) + {e.path}
    ensures var r := VisitFile(env, task, Snapshot(store0, task.id), st, e.path, e.file);
      r.Proceed? && FirstRunSoFar(env, task, store0, r.state, done + [e])
  {
    var r := VisitFile(env, task, Snapshot(store0, task.id), st, e.path, e.file);
    var p, f := e.path, e.file;
    assert p !in Visits(done) by {
      if p in Visits(done) {
        VisitsAreEntryPaths(done, p);
      }
    }
    assert r.Proceed? && Settled(env, task, r.state.dest, r.state.store, p, f) by {
      FirstVisitSettles(env, task, store0, st, p, f);
    }
    assert forall q :: q != p ==> RowsAt(r.state.store, task.id, q) == RowsAt(st.store, task.id, q) by {
      FirstVisitFrame(env, task, store0, st, p, f);
    }
    SettledKept(env, task, st, r.state, done, e);
    MirroredKept(st.dest, r.state.dest, done, e);
  }

  /** A visit that keeps the other paths' nodes and leaves a directory it visits in place keeps the directories done mirrored. */
  lemma MirroredKept(t: Tree, t': Tree, done: seq<WalkEntry>, e: WalkEntry)
    requires DirsMirrored(t, done)
    requires forall i :: 0 <= i < |done| ==> done[i].path != e.path
    requires forall q :: q in t && q != e.path ==> q in t'
    requires e.DirVisit? && e.path != [] ==> e.path in t'
    ensures DirsMirrored(t', done + [e])
  {
    forall i | 0 <= i < |done + [e]| && (done + [e])[i].DirVisit? && (done + [e])[i].path != []
      ensures (done + [e])[i].path in t'
    {
      if i < |done| {
        assert (done + [e])[i] == done[i];
      }
    }
  }

  /**
    When a file visit settles its file, leaves the other paths' nodes and
    fingerprints alone and keeps the table free of duplicates, the first
    run's invariant extends over the visited entry.
  */
  lemma SettledKept(env: Env, task: Task, st: RunState, st': RunState, done: seq<WalkEntry>, e: WalkEntry)
    requires e.FileVisit?
    requires forall i :: 0 <= i < |done| ==> done[i].path != e.path
    requires AllSettled(env, task, st.dest, st.store, done)
    requires Settled(env, task, st'.dest, st'.store, e.path, e.file)
    requires forall q :: q in st.dest && q != e.path ==> q in st'.dest && st'.dest[q] == st.dest[q]
    requires forall q :: q != e.path ==> RowsAt(st'.store, task.id, q) == RowsAt(st.store, task.id, q)
    ensures AllSettled(env, task, st'.dest, st'.store, done + [e])
  {
    forall i | 0 <= i < |done + [e]| && (done + [e])[i].FileVisit?
      ensures Settled(env, task, st'.dest, st'.store, (done + [e])[i].path, (done + [e])[i].file)
    {
      if i < |done| {
        assert (done + [e])[i] == done[i];
        assert Settled(env, task, st.dest, st.store, done[i].path, done[i].file);
      }
    }
  }

  /** A directory entry of the first run goes through and keeps every file settled. */
  lemma FirstDirStep(env: Env, task: Task, store0: Table, st: RunState, done: seq<WalkEntry>, e: WalkEntry)
    requires env.faults == {} && e.DirVisit? && DirsAlong(st.dest, e.path)
    requires forall i :: 0 <= i < |done| ==> done[i].path != e.path
    requires FirstRunSoFar(env, task, store0, st, done)
    requires Visits(done) <= Visits(done + [e])
    ensures var r := VisitDirectory(env, st, e.path);
      r.Proceed? && FirstRunSoFar(env, task, store0, r.state, done + [e])
  {
    var r := VisitDirectory(env, st, e.path);
    MirroredKept(st.dest, r.state.dest, done, e);
    forall i | 0 <= i < |done + [e]| && (done + [e])[i].FileVisit?
      ensures Settled(env, task, r.state.dest, r.state.store, (done + [e])[i].path, (done + [e])[i].file)
    {
      assert (done + [e])[i] == done[i];
      assert Settled(env, task, st.dest, st.store, done[i].path, done[i].file);
    }
  }

  /** The head of the rest of a walk names no path the walk has already passed. */
  lemma DistinctHead(done: seq<WalkEntry>, rest: seq<WalkEntry>)
    requires |rest| > 0 && DistinctPaths(done + rest)
    ensures forall i :: 0 <= i < |done| ==> done[i].path != rest[0].path
  {
    forall i | 0 <= i < |done| ensures done[i].path != rest[0].path {
      assert (done + rest)[i] == done[i];
      assert (done + rest)[|done|] == rest[0];
    }
  }

  /** The tail of a readable walk is readable. */
  lemma ReadableTail(rest: seq<WalkEntry>)
    requires |rest| > 0 && Readable(rest)
    ensures !rest[0].VisitFailed? && Readable(rest[1..])
  {
    forall i | 0 <= i < |rest[1..]| ensures !rest[1..][i].VisitFailed? {
      assert rest[1..][i] == rest[i + 1];
    }
  }

  /** A walk whose first entry goes through continues from the state that entry left. */
  lemma WalkStep(env: Env, task: Task, snap: map<Path, Fingerprint>, st: RunState, entries: seq<WalkEntry>)
    requires |entries| > 0 && VisitEntry(env, task, snap, st, entries[0]).Proceed?
    ensures Walk(env, task, snap, st, entries)
         == Walk(env, task, snap, VisitEntry(env, task, snap, st, entries[0]).state, entries[1..])
  {
  }

  /**
    The walk of the first run completes and settles every file it visits,
    and the destination keeps nothing below the stale paths.
  */
  lemma {:induction false} FirstWalk(env: Env, task: Task, store0: Table, st: RunState, stale: set<Path>,
                                     all: seq<WalkEntry>, done: seq<WalkEntry>, rest: seq<WalkEntry>)
    requires all == done + rest
    requires env.faults == {} && Unique(store0)
    requires DistinctPaths(all) && Readable(rest) && FilesAreLeaves(all) && AboveNoEntry(stale, all)
    requires AllFit(st.dest, rest) && AllChildless(st.dest, stale)
    requires FirstRunSoFar(env, task, store0, st, done)
    ensures var r := Walk(env, task, Snapshot(store0, task.id), st, rest);
      r.Proceed? && FirstRunSoFar(env, task, store0, r.state, all) && AllChildless(r.state.dest, stale)
    decreases |rest|
  {
    if |rest| == 0 {
      assert all == done;
    } else {
      var snap := Snapshot(store0, task.id);
      FirstWalkStep(env, task, store0, st, stale, all, done, rest);
      var step := VisitEntry(env, task, snap, st, rest[0]);
      WalkStep(env, task, snap, st, rest);
      ReadableTail(rest);
      Regroup(done, rest);
      FirstWalk(env, task, store0, step.state, stale, all, done + [rest[0]], rest[1..]);
    }
  }

  /**
    The first entry of the rest of the first run's walk goes through, keeps
    the invariant, and leaves room for the entries after it and nothing
    below the stale paths.
  */
  lemma FirstWalkStep(env: Env, task: Task, store0: Table, st: RunState, stale: set<Path>,
                      all: seq<WalkEntry>, done: seq<WalkEntry>, rest: seq<WalkEntry>)
    requires all == done + rest && |rest| > 0
    requires env.faults == {} && Unique(store0)
    requires DistinctPaths(all) && Readable(rest) && FilesAreLeaves(all) && AboveNoEntry(stale, all)
    requires AllFit(st.dest, rest) && AllChildless(st.dest, stale)
    requires FirstRunSoFar(env, task, store0, st, done)
    ensures var step := VisitEntry(env, task, Snapshot(store0, task.id), st, rest[0]);
      && step.Proceed? && FirstRunSoFar(env, task, store0, step.state, done + [rest[0]])
      && AllFit(step.state.dest, rest[1..]) && AllChildless(step.state.dest, stale)
  {
    var e := rest[0];
    var step := VisitEntry(env, task, Snapshot(store0, task.id), st, e);
    DistinctHead(done, rest);
    ReadableTail(rest);
    assert Fits(st.dest, e);
    FirstStep(env, task, store0, st, done, e);
    assert AllFit(st.dest, rest[1..]) by {
      forall i | 0 <= i < |rest[1..]| ensures Fits(st.dest, rest[1..][i]) {
        assert rest[1..][i] == rest[i + 1];
      }
    }
    HeadApart(stale, all, done, rest);
    ShapeKept(st.dest, step.state.dest, e, rest[1..], stale);
  }

  /**
    Where the head of the rest of a tree walk stands against the entries
    after it and the stale paths: no later entry repeats its path or lies
    below it if it is a file, no later file lies above it, and no stale
    path lies above it.
  */
  lemma HeadApart(stale: set<Path>, all: seq<WalkEntry>, done: seq<WalkEntry>, rest: seq<WalkEntry>)
    requires all == done + rest && |rest| > 0
    requires DistinctPaths(all) && FilesAreLeaves(all) && AboveNoEntry(stale, all)
    ensures var e, ahead := rest[0], rest[1..];
      && (e.FileVisit? ==> forall i :: 0 <= i < |ahead| ==> ahead[i].path != e.path && !Below(e.path, ahead[i].path))
      && (forall i :: 0 <= i < |ahead| && ahead[i].FileVisit? ==> !Below(ahead[i].path, e.path))
      && (forall s :: s in stale ==> !Below(s, e.path))
  {
    var e, ahead := rest[0], rest[1..];
    var h := |done|;
    assert all[h] == e;
    forall i | 0 <= i < |ahead|
      ensures ahead[i].path != e.path
      ensures e.FileVisit? ==> !Below(e.path, ahead[i].path)
      ensures ahead[i].FileVisit? ==> !Below(ahead[i].path, e.path)
    {
      assert all[h + 1 + i] == ahead[i];
    }
  }

  /**
    After a visit that changes the destination only along the visited
    path, the entries ahead still have room and the stale paths still have
    nothing below them, provided no later entry lies below a visited file,
    no later file lies above the visited path, and no stale path does.
  */
  lemma ShapeKept(t: Tree, t': Tree, e: WalkEntry, ahead: seq<WalkEntry>, stale: set<Path>)
    requires GrowsAlong(t, t', e.path, e.FileVisit?)
    requires AllFit(t, ahead) && AllChildless(t, stale)
    requires e.FileVisit? ==> forall i :: 0 <= i < |ahead| ==> ahead[i].path != e.path && !Below(e.path, ahead[i].path)
    requires forall i :: 0 <= i < |ahead| && ahead[i].FileVisit? ==> !Below(ahead[i].path, e.path)
    requires forall s :: s in stale ==> !Below(s, e.path)
    ensures AllFit(t', ahead) && AllChildless(t', stale)
  {
    forall i | 0 <= i < |ahead| ensures Fits(t', ahead[i]) {
      FitKept(t, t', e.path, e.FileVisit?, ahead[i]);
    }
    forall s | s in stale ensures Childless(t', s) {
      ChildlessKept(t, t', e.path, e.FileVisit?, s);
    }
  }

  /** Room for one entry survives growth along a path that neither stands in its way nor lies below a file entry. */
  lemma FitKept(t: Tree, t': Tree, p: Path, leaf: bool, e: WalkEntry)
    requires GrowsAlong(t, t', p, leaf) && Fits(t, e)
    requires leaf ==> e.path != p && !Below(p, e.path)
    requires e.FileVisit? ==> !Below(e.path, p)
    ensures Fits(t', e)
  {
    match e
    case DirVisit(q) =>
      if leaf && PrefixOf(p, q) {
        PrefixCases(p, q);
      }
      DirsAlongKept(t, t', p, leaf, q);
    case FileVisit(q, _) =>
      if leaf && PrefixOf(p, Parent(q)) {
        PrefixOfParent(p, q);
        PrefixCases(p, q);
      }
      DirsAlongKept(t, t', p, leaf, Parent(q));
      ChildlessKept(t, t', p, leaf, q);
    case VisitFailed(_) =>
  }

  /** Growth along p puts nothing below a path that does not lie above p. */
  lemma ChildlessKept(t: Tree, t': Tree, p: Path, leaf: bool, s: Path)
    requires GrowsAlong(t, t', p, leaf) && Childless(t, s) && !Below(s, p)
    ensures Childless(t', s)
  {
    forall q | q in t' ensures !Below(s, q) {
      if !(q in t && t'[q] == t[q]) && Below(s, q) {
        BelowPrefix(s, q, p);
      }
    }
  }

  /** Growth along p keeps the way to x all directories, unless it puts a file at p on that way. */
  lemma DirsAlongKept(t: Tree, t': Tree, p: Path, leaf: bool, x: Path)
    requires GrowsAlong(t, t', p, leaf) && DirsAlong(t, x)
    requires leaf ==> !PrefixOf(p, x)
    ensures DirsAlong(t', x)
  {
    forall k | 0 <= k <= |x| && x[..k] in t' ensures t'[x[..k]].DirNode? {
      assert PrefixOf(x[..k], x);
    }
  }

  /** Moving the head of the rest onto the end of what is done leaves the whole walk as it was. */
  lemma Regroup(done: seq<WalkEntry>, rest: seq<WalkEntry>)
    requires |rest| > 0
    ensures done + rest == (done + [rest[0]]) + rest[1..]
  {
  }

  /**
    A first run without failures, over a destination of a compatible shape,
    completes; it leaves every file of the walk settled, every directory of
    the walk at the destination, the table free of duplicates, and
    fingerprints for the task only at paths the walk visited.
  */
  lemma FirstRunSettles(dest: Tree, store: Table, task: Task, env: Env)
    requires env.sourceExists && env.faults == {} && Unique(store)
    requires DistinctPaths(env.walk) && Readable(env.walk)
    requires Compatible(dest, store, task, env)
    ensures var r := Synchronise(dest, store, task, env);
      && r.verdict.Finished? && Unique(r.store)
      && AllSettled(env, task, r.dest, r.store, env.walk)
      && DirsMirrored(r.dest, env.walk)
      && forall q :: |RowsAt(r.store, task.id, q)| > 0 ==> q in Visits(env.walk)
  {
    var w := WalkOf(dest, store, task, env);
    var stale := StaleEntries(store, task, env);
    FirstWalkOf(dest, store, task, env);
    var order := TaskPaths(store, task.id);
    assert Prune(env, task.id, order, w.state).Proceed? by {
      assert Orphans(order, w.state.visited) == stale;
      PruneCompletes(env, task.id, order, w.state);
    }
    var r := Synchronise(dest, store, task, env);
    assert r.verdict.Finished?;
    RunKeepsStore(dest, store, task, env);
    CompletedRunPrunesUnvisited(dest, store, task, env);
    forall i | 0 <= i < |env.walk| && env.walk[i].FileVisit?
      ensures Settled(env, task, r.dest, r.store, env.walk[i].path, env.walk[i].file)
    {
      FilesAreVisited(env.walk, i);
      assert Settled(env, task, w.state.dest, w.state.store, env.walk[i].path, env.walk[i].file);
    }
    forall i | 0 <= i < |env.walk| && env.walk[i].DirVisit? && env.walk[i].path != []
      ensures env.walk[i].path in r.dest
    {
      FilesAreVisited(env.walk, i);
    }
    forall q | |RowsAt(r.store, task.id, q)| > 0 ensures q in Visits(env.walk) {
      RowsAtRemovePaths(w.state.store, task.id, stale, task.id, q);
    }
  }

  /** The walk pass of a first run as above completes with the walk invariant over all its entries. */
  lemma FirstWalkOf(dest: Tree, store: Table, task: Task, env: Env)
    requires env.faults == {} && Unique(store)
    requires DistinctPaths(env.walk) && Readable(env.walk)
    requires Compatible(dest, store, task, env)
    ensures var w := WalkOf(dest, store, task, env);
      && w.Proceed? && FirstRunSoFar(env, task, store, w.state, env.walk)
      && AllChildless(w.state.dest, StaleEntries(store, task, env))
  {
    var st := Start(dest, store, env);
    var stale := StaleEntries(store, task, env);
    assert AllFit(st.dest, env.walk) && AllChildless(st.dest, stale) by {
      StartGrows(dest, store, env);
      ShapeKept(dest, st.dest, DirVisit([]), env.walk, stale);
    }
    assert env.walk == [] + env.walk;
    assert FirstRunSoFar(env, task, store, st, []);
    FirstWalk(env, task, store, st, stale, env.walk, [], env.walk);
  }

  /**
    A walk from st over the entries went through having skipped every
    file: only the scanned and skipped counters moved, by the number of
    files each, the fingerprint table is as it was, the entries' paths
    are visited, and every existing destination node is kept.
  */
  predicate QuietlyWalked(st: RunState, r: Outcome, entries: seq<WalkEntry>) {
    var n := FileCount(entries);
    && r.Proceed? && r.state.store == st.store && r.state.visited == st.visited + Visits(entries)
    && r.state.stats == st.stats.(scanned := st.stats.scanned + n, skipped := st.stats.skipped + n)
    && forall q :: q in st.dest ==> q in r.state.dest && r.state.dest[q] == st.dest[q]
  }

  /** The walk of a run over settled files completes, skipping each of them and changing nothing else. */
  lemma {:induction false} QuietWalk(env: Env, task: Task, st: RunState, entries: seq<WalkEntry>)
    requires env.faults == {} && Unique(st.store) && Readable(entries)
    requires AllSettled(env, task, st.dest, st.store, entries) && DirsMirrored(st.dest, entries)
    ensures QuietlyWalked(st, Walk(env, task, Snapshot(st.store, task.id), st, entries), entries)
    decreases |entries|
  {
    if |entries| > 0 {
      var snap := Snapshot(st.store, task.id);
      var e := entries[0];
      assert !e.VisitFailed?;
      if e.FileVisit? {
        assert Settled(env, task, st.dest, st.store, e.path, e.file);
        SettledIsSkipped(env, task, st.dest, st.store, e.path, e.file);
        VisitFileOutcome(env, task, snap, st, e.path, e.file);
      }
      var s := VisitEntry(env, task, snap, st, e).state;
      forall i | 0 <= i < |entries[1..]| && entries[1..][i].FileVisit?
        ensures Settled(env, task, s.dest, s.store, entries[1..][i].path, entries[1..][i].file)
      {
        assert entries[1..][i] == entries[i + 1];
        assert Settled(env, task, st.dest, st.store, entries[i + 1].path, entries[i + 1].file);
      }
      forall i | 0 <= i < |entries[1..]| && entries[1..][i].DirVisit? && entries[1..][i].path != []
        ensures entries[1..][i].path in s.dest
      {
        assert entries[1..][i] == entries[i + 1];
      }
      assert Readable(entries[1..]) by {
        forall i | 0 <= i < |entries[1..]| ensures !entries[1..][i].VisitFailed? {
          assert entries[1..][i] == entries[i + 1];
        }
      }
      QuietWalk(env, task, s, entries[1..]);
    }
  }

  /**
    A run over settled files, with fingerprints only at paths the walk
    visits, completes with every file scanned and skipped, nothing copied,
    updated or deleted, the fingerprint table unchanged and every
    destination node kept.
  */
  lemma QuietRun(dest: Tree, store: Table, task: Task, env: Env)
    requires env.sourceExists && env.faults == {} && Unique(store) && Readable(env.walk)
    requires AllSettled(env, task, dest, store, env.walk) && DirsMirrored(dest, env.walk)
    requires forall q :: |RowsAt(store, task.id, q)| > 0 ==> q in Visits(env.walk)
    ensures var r := Synchronise(dest, store, task, env);
      && r.verdict == Finished(NoStats.(scanned := FileCount(env.walk), skipped := FileCount(env.walk)))
      && r.store == store
      && forall q :: q in dest ==> q in r.dest && r.dest[q] == dest[q]
  {
    var w := WalkOf(dest, store, task, env);
    var n := FileCount(env.walk);
    assert w.Proceed? && w.state.store == store && w.state.visited == Visits(env.walk)
        && w.state.stats == NoStats.(scanned := n, skipped := n)
        && forall q :: q in dest ==> q in w.state.dest && w.state.dest[q] == dest[q] by {
      QuietWalkOf(dest, store, task, env);
      StartKeepsSettled(dest, store, task, env);
      QuietFromStart(dest, Start(dest, store, env), w, env.walk);
    }
    var order := TaskPaths(store, task.id);
    assert Prune(env, task.id, order, w.state) == Proceed(w.state) by {
      assert Orphans(order, w.state.visited) == {};
      QuietPrune(env, task.id, order, w.state);
    }
    assert Synchronise(dest, store, task, env) == RunResult(w.state.dest, w.state.store, Finished(w.state.stats));
  }

  /** The walk pass of a run over settled files skips them all and changes no fingerprint and no existing node. */
  lemma QuietWalkOf(dest: Tree, store: Table, task: Task, env: Env)
    requires env.faults == {} && Unique(store) && Readable(env.walk)
    requires AllSettled(env, task, dest, store, env.walk) && DirsMirrored(dest, env.walk)
    ensures QuietlyWalked(Start(dest, store, env), WalkOf(dest, store, task, env), env.walk)
  {
    var st := Start(dest, store, env);
    StartKeepsSettled(dest, store, task, env);
    QuietWalk(env, task, st, env.walk);
  }

  /** A quiet walk from a fresh start counts only skips and keeps every node it started from. */
  lemma QuietFromStart(dest: Tree, st: RunState, w: Outcome, entries: seq<WalkEntry>)
    requires st.stats == NoStats && st.visited == {}
    requires forall q :: q in dest ==> q in st.dest && st.dest[q] == dest[q]
    requires QuietlyWalked(st, w, entries)
    ensures w.Proceed? && w.state.store == st.store && w.state.visited == Visits(entries)
    ensures w.state.stats == NoStats.(scanned := FileCount(entries), skipped := FileCount(entries))
    ensures forall q :: q in dest ==> q in w.state.dest && w.state.dest[q] == dest[q]
  {
  }

  /** Ensuring the destination root keeps every settled file settled. */
  lemma StartKeepsSettled(dest: Tree, store: Table, task: Task, env: Env)
    requires AllSettled(env, task, dest, store, env.walk) && DirsMirrored(dest, env.walk)
    ensures var st := Start(dest, store, env);
      && AllSettled(env, task, st.dest, st.store, env.walk) && DirsMirrored(st.dest, env.walk)
      && st.store == store && st.stats == NoStats && st.visited == {}
      && forall q :: q in dest ==> q in st.dest && st.dest[q] == dest[q]
  {
    var st := Start(dest, store, env);
    forall i | 0 <= i < |env.walk| && env.walk[i].FileVisit?
      ensures Settled(env, task, st.dest, st.store, env.walk[i].path, env.walk[i].file)
    {
      assert Settled(env, task, dest, store, env.walk[i].path, env.walk[i].file);
    }
  }

  /** Pruning with no orphans completes and changes nothing. */
  lemma QuietPrune(env: Env, task: TaskId, order: seq<Path>, st: RunState)
    requires Orphans(order, st.visited) == {}
    ensures Prune(env, task, order, st) == Proceed(st)
  {
    PruneCompletes(env, task, order, st);
    PruneDeletesOrphanNodes(env, task, order, st);
    PruneRemovesOrphanFingerprints(env, task, order, st);
    PruneCountsDeletions(env, task, order, st);
    RemoveNothing(st.store, task);
    assert st.dest - {} == st.dest;
  }

  /**
    Running a task twice over an unchanged source, with nothing failing,
    makes the second run a no-op on the data: it completes, scans and
    skips every file, copies, updates and deletes nothing, transfers no
    bytes, and leaves the fingerprint table and every destination node as
    the first run left them. Only the clock may differ between the runs.
  */
  lemma SecondRunChangesNothing(w: World, task: Task, env: Env, later: Clock)
    requires !IsSyncRunning(w, task.id) && Unique(w.store)
    requires env.sourceExists && env.faults == {}
    requires DistinctPaths(env.walk) && Readable(env.walk)
    requires Compatible(w.dest, w.store, task, env)
    ensures var r1 := ExecuteSync(w, task, env);
      var r2 := ExecuteSync(r1.1, task, env.(clock := later));
      && r1.0.Some? && r1.0.value.status == Completed
      && r2.0.Some? && r2.0.value.status == Completed
      && r2.0.value.stats == NoStats.(scanned := FileCount(env.walk), skipped := FileCount(env.walk))
      && r2.1.store == r1.1.store
      && forall q :: q in r1.1.dest ==> q in r2.1.dest && r2.1.dest[q] == r1.1.dest[q]
  {
    var env2 := env.(clock := later);
    var r1 := ExecuteSync(w, task, env);
    var w1 := r1.1;
    FirstRunSettles(w.dest, w.store, task, env);
    ExecuteSyncRecords(w, task, env);
    assert AllSettled(env2, task, w1.dest, w1.store, env2.walk) by {
      SettledUnderOtherClock(env, later, task, w1.dest, w1.store, env.walk);
    }
    QuietRun(w1.dest, w1.store, task, env2);
    ExecuteSyncRecords(w1, task, env2);
  }

  /** Settledness does not depend on the clock. */
  lemma SettledUnderOtherClock(env: Env, later: Clock, task: Task, dest: Tree, store: Table, entries: seq<WalkEntry>)
    requires AllSettled(env, task, dest, store, entries)
    ensures AllSettled(env.(clock := later), task, dest, store, entries)
  {
    forall i | 0 <= i < |entries| && entries[i].FileVisit?
      ensures Settled(env.(clock := later), task, dest, store, entries[i].path, entries[i].file)
    {
      assert Settled(env, task, dest, store, entries[i].path, entries[i].file);
    }
  }
}

=== FILE: pruner.dfy ===
/**
  The prune pass of a run: after the walk, every path that had a
  fingerprint when the run started but was not visited loses its
  fingerprint, and its destination node is deleted when there is one.
  The paths are taken in table order; the source iterates a hash map's
  key set, whose order is unspecified and only decides which deletions
  precede a failing one.
*/
module Pruner {
  import opened Common
  import opened FileSystem
  import opened FingerprintStore
  import opened SyncState

  /** The stored paths the walk did not visit. */
  function Orphans(order: seq<Path>, visited: set<Path>): set<Path> {
    set p | p in order && p !in visited
  }

  /**
    Files.delete of an existing node fails: an I/O error, or a directory
    that still has entries (DirectoryNotEmptyException).
  */
  predicate DeleteFails(env: Env, dest: Tree, p: Path) {
    p in dest && (DeleteAt(p) in env.faults || !Childless(dest, p))
  }

  /**
    The loop over existingMetadata.keySet(). When it stops, it stops on an
    orphan that is still at the destination and cannot be deleted there.
  */
  function Prune(env: Env, task: TaskId, order: seq<Path>, st: RunState): (r: Outcome)
    ensures r.state.visited == st.visited
    ensures r.Halt? ==>
      && r.error.IoFailure? && r.error.op.DeleteAt?
      && r.error.op.path in Orphans(order, st.visited)
      && DeleteFails(env, r.state.dest, r.error.op.path)
    decreases |order|
  {
    if |order| == 0 then Proceed(st)
    else
      var p := order[0];
      if p in st.visited then Prune(env, task, order[1..], st)
      else if DeleteFails(env, st.dest, p) then Halt(st, IoFailure(DeleteAt(p)))
      else
        var st1 := if p in st.dest
          then st.(dest := st.dest - {p}, stats := st.stats.(deleted := st.stats.deleted + 1))
          else st;
        Prune(env, task, order[1..], st1.(store := Without(st1.store, task, p)))
  }

  /** The orphans still to do once the head of the order is done. */
  lemma OrphansTail(order: seq<Path>, visited: set<Path>)
    requires |order| > 0
    ensures Orphans(order, visited)
         == Orphans(order[1..], visited) + (if order[0] in visited then {} else {order[0]})
  {
    assert order == [order[0]] + order[1..];
  }

  /** The state after the head of the order is done, when that does not fail. */
  function PruneHead(env: Env, task: TaskId, p: Path, st: RunState): RunState {
    if p in st.visited then st
    else
      var st1 := if p in st.dest
        then st.(dest := st.dest - {p}, stats := st.stats.(deleted := st.stats.deleted + 1))
        else st;
      st1.(store := Without(st1.store, task, p))
  }

  lemma PruneStep(env: Env, task: TaskId, order: seq<Path>, st: RunState)
    requires |order| > 0
    requires !(order[0] !in st.visited && DeleteFails(env, st.dest, order[0]))
    ensures Prune(env, task, order, st) == Prune(env, task, order[1..], PruneHead(env, task, order[0], st))
  {
  }

  /** A prune pass that completes went through its first path and then completed on the rest. */
  lemma CompletedStep(env: Env, task: TaskId, order: seq<Path>, st: RunState)
    requires |order| > 0 && Prune(env, task, order, st).Proceed?
    ensures !(order[0] !in st.visited && DeleteFails(env, st.dest, order[0]))
    ensures Prune(env, task, order, st) == Prune(env, task, order[1..], PruneHead(env, task, order[0], st))
  {
  }

  /**
    The prune pass completes when every orphan that exists at the
    destination can be deleted there: no I/O error and nothing below it.
    Conversely, it completes only if no orphan at the destination meets an
    I/O error and nothing but orphans lies below one.
  */
  lemma {:induction false} PruneCompletes(env: Env, task: TaskId, order: seq<Path>, st: RunState)
    ensures (forall p :: p in Orphans(order, st.visited) && p in st.dest ==>
               DeleteAt(p) !in env.faults && Childless(st.dest, p))
        ==> Prune(env, task, order, st).Proceed?
    ensures Prune(env, task, order, st).Proceed? ==>
      forall p :: p in Orphans(order, st.visited) && p in st.dest ==>
        && DeleteAt(p) !in env.faults
        && forall q :: q in st.dest && Below(p, q) ==> q in Orphans(order, st.visited)
    decreases |order|
  {
    if |order| > 0 {
      var p0 := order[0];
      OrphansTail(order, st.visited);
      if !(p0 !in st.visited && DeleteFails(env, st.dest, p0)) {
        var st2 := PruneHead(env, task, p0, st);
        PruneStep(env, task, order, st);
        PruneCompletes(env, task, order[1..], st2);
        assert st2.visited == st.visited;
        assert forall q :: q in st2.dest <==> q in st.dest && (q != p0 || p0 in st.visited);
      }
    }
  }

  /** A prune pass that completes has deleted exactly the destination nodes of the orphans. */
  lemma {:induction false} PruneDeletesOrphanNodes(env: Env, task: TaskId, order: seq<Path>, st: RunState)
    requires Prune(env, task, order, st).Proceed?
    ensures Prune(env, task, order, st).state.dest == st.dest - Orphans(order, st.visited)
    decreases |order|
  {
    var orphans := Orphans(order, st.visited);
    if |order| == 0 {
      assert st.dest - orphans == st.dest;
    } else {
      var p := order[0];
      OrphansTail(order, st.visited);
      var st2 := PruneHead(env, task, p, st);
      CompletedStep(env, task, order, st);
      PruneDeletesOrphanNodes(env, task, order[1..], st2);
      assert st2.dest - Orphans(order[1..], st.visited) == st.dest - orphans;
    }
  }

  /** A prune pass that completes has removed exactly the orphans' fingerprints. */
  lemma {:induction false} PruneRemovesOrphanFingerprints(env: Env, task: TaskId, order: seq<Path>, st: RunState)
    requires Prune(env, task, order, st).Proceed?
    ensures Prune(env, task, order, st).state.store == RemovePaths(st.store, task, Orphans(order, st.visited))
    decreases |order|
  {
    var orphans := Orphans(order, st.visited);
    if |order| == 0 {
      assert orphans == {};
      RemoveNothing(st.store, task);
    } else {
      var p := order[0];
      var tailOrphans := Orphans(order[1..], st.visited);
      OrphansTail(order, st.visited);
      var st2 := PruneHead(env, task, p, st);
      CompletedStep(env, task, order, st);
      PruneRemovesOrphanFingerprints(env, task, order[1..], st2);
      if p in st.visited {
        assert orphans == tailOrphans;
      } else {
        WithoutRemovePaths(st.store, task, {}, p);
        RemoveNothing(st.store, task);
        assert st2.store == RemovePaths(st.store, task, {} + {p});
        assert {} + {p} == {p};
        RemoveTwice(st.store, task, {p}, tailOrphans);
        assert {p} + tailOrphans == orphans;
      }
    }
  }

  /**
    A prune pass that completes has counted one deletion for each orphan
    that existed at the destination, and changed no other counter.
  */
  lemma {:induction false} PruneCountsDeletions(env: Env, task: TaskId, order: seq<Path>, st: RunState)
    requires Prune(env, task, order, st).Proceed?
    ensures var s := Prune(env, task, order, st).state.stats;
      && s.deleted == st.stats.deleted + |Orphans(order, st.visited) * st.dest.Keys|
      && s.scanned == st.stats.scanned && s.copied == st.stats.copied && s.updated == st.stats.updated
      && s.skipped == st.stats.skipped && s.totalBytes == st.stats.totalBytes
    decreases |order|
  {
    if |order| == 0 {
      assert Orphans(order, st.visited) == {};
    } else {
      var p := order[0];
      OrphansTail(order, st.visited);
      CompletedStep(env, task, order, st);
      PruneCountsDeletions(env, task, order[1..], PruneHead(env, task, p, st));
      HeadCounts(env, task, p, st, Orphans(order[1..], st.visited));
    }
  }

  /**
    Doing one path of the order moves its deletion, if it was an orphan at
    the destination, from the orphans still to do into the counter.
  */
  lemma HeadCounts(env: Env, task: TaskId, p: Path, st: RunState, tail: set<Path>)
    ensures var st2 := PruneHead(env, task, p, st);
      var orphans := tail + (if p in st.visited then {} else {p});
      && st2.visited == st.visited
      && st2.stats.deleted + |tail * st2.dest.Keys| == st.stats.deleted + |orphans * st.dest.Keys|
      && st2.stats.scanned == st.stats.scanned && st2.stats.copied == st.stats.copied
      && st2.stats.updated == st.stats.updated && st2.stats.skipped == st.stats.skipped
      && st2.stats.totalBytes == st.stats.totalBytes
  {
    if p !in st.visited {
      var after := if p in st.dest then st.dest - {p} else st.dest;
      DeletedCount(st.dest, p, tail);
      assert p !in after.Keys;
      assert tail * after.Keys == (tail - {p}) * after.Keys;
    } else {
      assert tail + {} == tail;
    }
  }

  /** Two batches of fingerprint deletions are one batch of their union. */
  lemma {:induction false} RemoveTwice(t: Table, task: TaskId, a: set<Path>, b: set<Path>)
    ensures RemovePaths(RemovePaths(t, task, a), task, b) == RemovePaths(t, task, a + b)
    decreases |t|
  {
    if |t| > 0 {
      RemoveTwice(Init(t), task, a, b);
      var x := Last(t);
      var ra := RemovePaths(t, task, a);
      var ra0 := RemovePaths(Init(t), task, a);
      if x.task == task && x.path in a {
        assert ra == ra0 + [] && ra0 + [] == ra0;
        assert RemovePaths(t, task, a + b) == RemovePaths(Init(t), task, a + b) + [];
      } else {
        assert ra == ra0 + [x];
        assert Init(ra) == ra0 && Last(ra) == x;
        var tail := if x.task == task && x.path in b then [] else [x];
        assert RemovePaths(ra, task, b) == RemovePaths(ra0, task, b) + tail;
        assert RemovePaths(t, task, a + b) == RemovePaths(Init(t), task, a + b) + tail;
      }
    }
  }

  /** Deleting p first and then the rest counts p once, if it existed, plus the rest. */
  lemma DeletedCount(dest: Tree, p: Path, rest: set<Path>)
    ensures var after := if p in dest then dest - {p} else dest;
      |(rest + {p}) * dest.Keys| == (if p in dest then 1 else 0) + |(rest - {p}) * after.Keys|
  {
    var after := if p in dest then dest - {p} else dest;
    if p in dest {
      assert (rest + {p}) * dest.Keys == ((rest - {p}) * after.Keys) + {p};
    } else {
      assert (rest + {p}) * dest.Keys == (rest - {p}) * after.Keys;
    }
  }
}

=== FILE: run_guard.dfy ===
/**
  The run guard: the set of task ids whose synchronisation is in
  progress. Claiming an id that is already held fails at once (no
  queueing); releasing always frees it.
*/
module RunGuard {
  import opened Common

  datatype Guard = Guard(claimed: set<TaskId>)

  /** No run in progress. */
  const Idle: Guard := Guard({})

  predicate IsClaimed(g: Guard, id: TaskId) {
    id in g.claimed
  }

  /** Set.add on the running set: claims id and reports whether it was free. */
  function TryClaim(g: Guard, id: TaskId): (r: (bool, Guard))
    ensures r.0 <==> !IsClaimed(g, id)
    ensures IsClaimed(r.1, id)
    ensures !r.0 ==> r.1 == g
    ensures forall other :: other != id ==> (IsClaimed(r.1, other) <==> IsClaimed(g, other))
  {
    (id !in g.claimed, Guard(g.claimed + {id}))
  }

  /** Set.remove on the running set. */
  function Release(g: Guard, id: TaskId): (r: Guard)
    ensures !IsClaimed(r, id)
    ensures forall other :: other != id ==> (IsClaimed(r, other) <==> IsClaimed(g, other))
  {
    Guard(g.claimed - {id})
  }

  /** A successful claim followed by its release leaves the guard as it was. */
  lemma ClaimThenRelease(g: Guard, id: TaskId)
    requires TryClaim(g, id).0
    ensures Release(TryClaim(g, id).1, id) == g
  {
    assert (g.claimed + {id}) - {id} == g.claimed;
  }
}

=== FILE: run_properties.dfy ===
/**
  Properties of a whole run: pruning removes exactly what the walk did not
  visit, the fingerprint table keeps one row per (task, path), and a run
  never touches another task's fingerprints, whatever the outcome.
*/
module RunProperties {
  import opened Common
  import opened FileSystem
  import opened FingerprintStore
  import opened SyncState
  import opened Walker
  import opened Pruner
  import opened SyncEngine

  /** No fingerprint of a task other than id differs between the two tables. */
  ghost predicate ForeignRowsKept(t: Table, t': Table, id: TaskId) {
    forall k, q :: k != id ==> RowsAt(t', k, q) == RowsAt(t, k, q)
  }

  /**
    In a completed run the prune set is exactly the paths that had a
    fingerprint when the run began minus the paths the walk visited; the
    run ends with those fingerprints and destination nodes gone, every
    visited path's fingerprints as the walk left them, and one deletion
    counted per pruned path that existed at the destination.
  */
  lemma CompletedRunPrunesUnvisited(dest: Tree, store: Table, task: Task, env: Env)
    ensures var walked := WalkOf(dest, store, task, env).state;
      var r := Synchronise(dest, store, task, env);
      var pruned := StaleEntries(store, task, env);
      r.verdict.Finished? ==>
      && (forall p :: p in pruned <==> p in Snapshot(store, task.id) && p !in Visits(env.walk))
      && r.store == RemovePaths(walked.store, task.id, pruned)
      && r.dest == walked.dest - pruned
      && r.verdict.stats.deleted == |pruned * walked.dest.Keys|
      && (forall p :: p in pruned ==> RowsAt(r.store, task.id, p) == [])
      && (forall p :: p in Visits(env.walk) ==> RowsAt(r.store, task.id, p) == RowsAt(walked.store, task.id, p))
  {
    if Synchronise(dest, store, task, env).verdict.Finished? {
      FinishedRun(dest, store, task, env);
      var walked := WalkOf(dest, store, task, env).state;
      var order := TaskPaths(store, task.id);
      var pruned := StaleEntries(store, task, env);
      var r := Synchronise(dest, store, task, env);
      var p := Prune(env, task.id, order, walked);
      assert r.store == p.state.store && r.dest == p.state.dest && r.verdict.stats == p.state.stats;
      assert pruned == Orphans(order, walked.visited);
      assert walked.stats.deleted == 0;
      assert r.store == RemovePaths(walked.store, task.id, pruned) by {
        PruneRemovesOrphanFingerprints(env, task.id, order, walked);
      }
      assert r.dest == walked.dest - pruned by {
        PruneDeletesOrphanNodes(env, task.id, order, walked);
      }
      assert r.verdict.stats.deleted == |pruned * walked.dest.Keys| by {
        PruneCountsDeletions(env, task.id, order, walked);
      }
      forall q ensures RowsAt(r.store, task.id, q) == if q in pruned then [] else RowsAt(walked.store, task.id, q) {
        RowsAtRemovePaths(walked.store, task.id, pruned, task.id, q);
      }
    }
  }

  /** Deleting the rows of one key keeps uniqueness and every other task's rows. */
  lemma WithoutKeeps(t: Table, task: TaskId, p: Path)
    ensures Unique(t) ==> Unique(Without(t, task, p))
    ensures ForeignRowsKept(t, Without(t, task, p), task)
  {
    WithoutRemovePaths(t, task, {}, p);
    RemoveNothing(t, task);
    assert {} + {p} == {p};
    if Unique(t) {
      UniqueRemovePaths(t, task, {p});
    }
    forall k, q | k != task ensures RowsAt(Without(t, task, p), k, q) == RowsAt(t, k, q) {
      RowsAtWithout(t, task, p, k, q);
    }
  }

  /** Whether it completes or stops, the prune pass keeps the table unique and other tasks' rows intact. */
  lemma {:induction false} PruneKeepsStore(env: Env, task: TaskId, order: seq<Path>, st: RunState)
    ensures var r := Prune(env, task, order, st);
      && (Unique(st.store) ==> Unique(r.state.store))
      && ForeignRowsKept(st.store, r.state.store, task)
    decreases |order|
  {
    if |order| > 0 && !(order[0] !in st.visited && DeleteFails(env, st.dest, order[0])) {
      var st2 := PruneHead(env, task, order[0], st);
      PruneStep(env, task, order, st);
      PruneKeepsStore(env, task, order[1..], st2);
      if order[0] !in st.visited {
        WithoutKeeps(st.store, task, order[0]);
      }
    }
  }

  /** Whether it completes or stops, the walk leaves other tasks' rows intact. */
  lemma {:induction false} WalkKeepsForeignRows(env: Env, task: Task, snap: map<Path, Fingerprint>, st: RunState,
                                                entries: seq<WalkEntry>)
    ensures ForeignRowsKept(st.store, Walk(env, task, snap, st, entries).state.store, task.id)
    decreases |entries|
  {
    if |entries| > 0 {
      var e := entries[0];
      var r := VisitEntry(env, task, snap, st, e);
      if e.FileVisit? {
        VisitFileOutcome(env, task, snap, st, e.path, e.file);
        if r.Proceed? && r.state.store != st.store {
          SameElsewhere(st.store, r.state.store, task.id, e.path);
        }
      }
      if r.Proceed? {
        WalkKeepsForeignRows(env, task, snap, r.state, entries[1..]);
      }
    }
  }

  /**
    Whatever its outcome, a run keeps the fingerprint table free of
    duplicate (task, path) rows if it was, and leaves every other task's
    fingerprints exactly as they were.
  */
  lemma RunKeepsStore(dest: Tree, store: Table, task: Task, env: Env)
    ensures var r := Synchronise(dest, store, task, env);
      && (Unique(store) ==> Unique(r.store))
      && ForeignRowsKept(store, r.store, task.id)
  {
    if env.sourceExists && !([] !in dest && MakeDirs([]) in env.faults) {
      var start := Start(dest, store, env);
      var w := WalkOf(dest, store, task, env);
      WalkKeepsForeignRows(env, task, Snapshot(store, task.id), start, env.walk);
      if w.Proceed? {
        PruneKeepsStore(env, task.id, TaskPaths(store, task.id), w.state);
      }
    }
  }
}

=== FILE: shape_change.dfy ===
/**
  A source path that changes kind. Take a file of an earlier run left at
  the destination where the source now has a directory. The walk enters
  that directory and marks its path processed, so the prune pass never
  removes the file. When the walk finds files below the directory, each
  of them needs the directories on its way created, and creating a
  directory over a file fails: every such run stops inside its walk, with
  the file still in place. When it finds none, the run can complete, and
  the file and its fingerprint outlive it.
*/
module ShapeChange {
  import opened Common
  import opened Hex
  import opened FileSystem
  import opened FingerprintStore
  import opened ChangeDetector
  import opened SyncState
  import opened Walker
  import opened Pruner
  import opened SyncEngine
  import opened RunProperties
  import opened Idempotence

  /** The destination holds a file at p, with nothing below it. */
  predicate FileLeaf(t: Tree, p: Path) {
    p in t && t[p].FileNode? && Childless(t, p)
  }

  /**
    An entry other than a file entry at p itself leaves the file at p in
    place with nothing below it, and an entry for a file below p does not
    go through.
  */
  lemma BlockedStep(env: Env, task: Task, snap: map<Path, Fingerprint>, st: RunState, e: WalkEntry, p: Path)
    requires FileLeaf(st.dest, p)
    requires !(e.FileVisit? && e.path == p)
    ensures var r := VisitEntry(env, task, snap, st, e);
      && FileLeaf(r.state.dest, p)
      && (e.FileVisit? && Below(p, e.path) ==> r.Halt?)
  {
    var r := VisitEntry(env, task, snap, st, e);
    if Below(p, e.path) {
      // the way to the entry, and to its parent directory, runs through the file at p
      assert e.path[..|p|] == p;
      assert Parent(e.path)[..|p|] == p;
      assert !DirsAlong(st.dest, e.path) && !DirsAlong(st.dest, Parent(e.path));
      assert e.path !in st.dest;
      assert r.state.dest == st.dest;
    }
    forall n | PrefixOf(n, e.path) && Below(p, n) ensures Below(p, e.path) {
      BelowPrefix(p, n, e.path);
    }
  }

  /** Entries with no file entry at p have none in their tail either. */
  lemma NoFileAtInTail(entries: seq<WalkEntry>, p: Path)
    requires |entries| > 0
    requires forall j :: 0 <= j < |entries| && entries[j].FileVisit? ==> entries[j].path != p
    ensures forall j :: 0 <= j < |entries[1..]| && entries[1..][j].FileVisit? ==> entries[1..][j].path != p
  {
    forall j | 0 <= j < |entries[1..]| && entries[1..][j].FileVisit? ensures entries[1..][j].path != p {
      assert entries[1..][j] == entries[j + 1];
    }
  }

  /**
    A walk that holds a file entry below the file at p, and no file entry
    at p itself, stops, leaving the file at p in place.
  */
  lemma {:induction false} WalkBlocked(env: Env, task: Task, snap: map<Path, Fingerprint>, st: RunState,
                                       entries: seq<WalkEntry>, p: Path, i: nat)
    requires FileLeaf(st.dest, p)
    requires i < |entries| && entries[i].FileVisit? && Below(p, entries[i].path)
    requires forall j :: 0 <= j < |entries| && entries[j].FileVisit? ==> entries[j].path != p
    ensures var r := Walk(env, task, snap, st, entries);
      r.Halt? && FileLeaf(r.state.dest, p)
    decreases |entries|
  {
    var r0 := VisitEntry(env, task, snap, st, entries[0]);
    BlockedStep(env, task, snap, st, entries[0], p);
    if r0.Proceed? {
      assert Walk(env, task, snap, st, entries) == Walk(env, task, snap, r0.state, entries[1..]);
      assert i > 0 && entries[1..][i - 1] == entries[i];
      NoFileAtInTail(entries, p);
      WalkBlocked(env, task, snap, r0.state, entries[1..], p, i - 1);
    } else {
      assert Walk(env, task, snap, st, entries) == r0;
    }
  }

  /**
    A file left at p where the walk finds a file below p (and no file at
    p) fails the run, and the file is still at p afterwards, so the lemma
    applies again to the next run over the same source.
  */
  lemma StaleFileBlocksRun(dest: Tree, store: Table, task: Task, env: Env, p: Path, i: nat)
    requires FileLeaf(dest, p)
    requires i < |env.walk| && env.walk[i].FileVisit? && Below(p, env.walk[i].path)
    requires forall j :: 0 <= j < |env.walk| && env.walk[j].FileVisit? ==> env.walk[j].path != p
    ensures var r := Synchronise(dest, store, task, env);
      r.verdict.Aborted? && FileLeaf(r.dest, p)
  {
    if env.sourceExists && !([] !in dest && MakeDirs([]) in env.faults) {
      var st := Start(dest, store, env);
      assert FileLeaf(st.dest, p) by {
        StartGrows(dest, store, env);
        assert forall q :: q in st.dest ==> q in dest || q == [];
      }
      WalkBlocked(env, task, Snapshot(store, task.id), st, env.walk, p, i);
    }
  }

  /**
    Through executeSync: a run of a task that is not running is recorded
    as Failed and leaves the file in place and the task not running, so
    every later run over the same source fails too.
  */
  lemma StaleFileFailsEveryRun(w: World, task: Task, env: Env, p: Path, i: nat)
    requires !IsSyncRunning(w, task.id) && FileLeaf(w.dest, p)
    requires i < |env.walk| && env.walk[i].FileVisit? && Below(p, env.walk[i].path)
    requires forall j :: 0 <= j < |env.walk| && env.walk[j].FileVisit? ==> env.walk[j].path != p
    ensures var r := ExecuteSync(w, task, env);
      && r.0.Some? && r.0.value.status == Failed
      && FileLeaf(r.1.dest, p) && !IsSyncRunning(r.1, task.id)
  {
    StaleFileBlocksRun(w.dest, w.store, task, env, p, i);
    ExecuteSyncRecords(w, task, env);
  }

  /** A directory the walk enters is processed, so its path is never among the paths the prune pass visits. */
  lemma DirVisitIsNeverPruned(store: Table, task: Task, env: Env, i: nat)
    requires i < |env.walk| && env.walk[i].DirVisit? && env.walk[i].path != []
    ensures env.walk[i].path !in StaleEntries(store, task, env)
  {
    FilesAreVisited(env.walk, i);
  }

  /**
    An entry other than a file entry at p keeps the file at p childless
    and keeps the task's fingerprints at p.
  */
  lemma LeafStep(env: Env, task: Task, snap: map<Path, Fingerprint>, st: RunState, e: WalkEntry, p: Path)
    requires FileLeaf(st.dest, p)
    requires !(e.FileVisit? && e.path == p)
    ensures var r := VisitEntry(env, task, snap, st, e);
      && FileLeaf(r.state.dest, p)
      && RowsAt(r.state.store, task.id, p) == RowsAt(st.store, task.id, p)
  {
    var r := VisitEntry(env, task, snap, st, e);
    BlockedStep(env, task, snap, st, e, p);
    if e.FileVisit? {
      VisitFileOutcome(env, task, snap, st, e.path, e.file);
      if r.Proceed? && r.state.store != st.store {
        SameElsewhere(st.store, r.state.store, task.id, e.path);
      }
    }
  }

  /**
    A walk with no file entry at p, whatever its outcome, leaves the file
    at p childless and the task's fingerprints at p as they were.
  */
  lemma {:induction false} WalkKeepsLeaf(env: Env, task: Task, snap: map<Path, Fingerprint>, st: RunState,
                                         entries: seq<WalkEntry>, p: Path)
    requires FileLeaf(st.dest, p)
    requires forall j :: 0 <= j < |entries| && entries[j].FileVisit? ==> entries[j].path != p
    ensures var r := Walk(env, task, snap, st, entries);
      && FileLeaf(r.state.dest, p)
      && RowsAt(r.state.store, task.id, p) == RowsAt(st.store, task.id, p)
    decreases |entries|
  {
    if |entries| == 0 {
      assert Walk(env, task, snap, st, entries) == Proceed(st);
    } else {
      var r0 := VisitEntry(env, task, snap, st, entries[0]);
      LeafStep(env, task, snap, st, entries[0], p);
      if r0.Proceed? {
        assert Walk(env, task, snap, st, entries) == Walk(env, task, snap, r0.state, entries[1..]);
        NoFileAtInTail(entries, p);
        WalkKeepsLeaf(env, task, snap, r0.state, entries[1..], p);
      } else {
        assert Walk(env, task, snap, st, entries) == r0;
      }
    }
  }

  /**
    A file left at p where the walk enters a directory p (and finds no
    file at p) survives a run that completes, childless, and so does the
    task's fingerprint at p: the next run over the same source meets the
    same file.
  */
  lemma StaleFileSurvivesCompletedRun(dest: Tree, store: Table, task: Task, env: Env, p: Path, i: nat)
    requires FileLeaf(dest, p)
    requires i < |env.walk| && env.walk[i] == DirVisit(p) && p != []
    requires forall j :: 0 <= j < |env.walk| && env.walk[j].FileVisit? ==> env.walk[j].path != p
    ensures var r := Synchronise(dest, store, task, env);
      r.verdict.Finished? ==> FileLeaf(r.dest, p) && RowsAt(r.store, task.id, p) == RowsAt(store, task.id, p)
  {
    var r := Synchronise(dest, store, task, env);
    if r.verdict.Finished? {
      var st := Start(dest, store, env);
      assert FileLeaf(st.dest, p) by {
        StartGrows(dest, store, env);
        assert forall q :: q in st.dest ==> q in dest || q == [];
      }
      var walked := WalkOf(dest, store, task, env).state;
      WalkKeepsLeaf(env, task, Snapshot(store, task.id), st, env.walk, p);
      FilesAreVisited(env.walk, i);
      DirVisitIsNeverPruned(store, task, env, i);
      CompletedRunPrunesUnvisited(dest, store, task, env);
      assert r.dest == walked.dest - StaleEntries(store, task, env);
    }
  }

  /**
    An instance: the source directory d is now empty where the destination
    still holds the file d with its fingerprint. With nothing failing, the
    run completes and leaves the destination and the fingerprint table
    exactly as they were.
  */
  lemma EmptyDirOverFileCompletes(task: Task, env: Env, a: Attrs, data: seq<byte>)
    requires env.sourceExists && env.faults == {} && env.walk == [DirVisit([]), DirVisit(["d"])]
    ensures var dest := map[[] := DirNode(a), ["d"] := FileNode(a, data)];
      var store := [Fingerprint(task.id, ["d"], a.size, a.mtime, None, 0, false)];
      var r := Synchronise(dest, store, task, env);
      r.verdict.Finished? && r.dest == dest && r.store == store
  {
    var d: Path := ["d"];
    var dest := map[[] := DirNode(a), d := FileNode(a, data)];
    var store := [Fingerprint(task.id, d, a.size, a.mtime, None, 0, false)];
    var snap := Snapshot(store, task.id);
    var st := RunState(dest, store, NoStats, {});
    var st1 := st.(visited := {d});
    assert Start(dest, store, env) == st;
    // the root is passed over; d already exists, as a file, so it is only marked processed
    assert d != [] && d in dest;
    assert VisitDirectory(env, st, d) == Proceed(st1);
    assert VisitEntry(env, task, snap, st, DirVisit(d)) == Proceed(st1);
    assert [DirVisit(d)][1..] == [];
    assert Walk(env, task, snap, st, [DirVisit(d)]) == Walk(env, task, snap, st1, []) == Proceed(st1);
    assert env.walk[1..] == [DirVisit(d)];
    assert WalkOf(dest, store, task, env) == Proceed(st1);
    // the prune pass meets only d, which the walk processed
    assert Init(store) == [] && Last(store).path == d;
    assert TaskPaths(store, task.id) == [d];
    assert Prune(env, task.id, [d], st1) == Prune(env, task.id, [], st1) == Proceed(st1);
  }
}

=== FILE: sync_engine.dfy ===
/**
  executeSync and isSyncRunning: a run claims its task id in the run
  guard (a second run of the same task is turned away with no session),
  opens a session, checks the source root, makes sure the destination
  root exists, loads the task's fingerprints, walks the source, prunes,
  and records the session's outcome; the claim is released on every path.
*/
module SyncEngine {
  import opened Common
  import opened FileSystem
  import opened FingerprintStore
  import opened RunGuard
  import opened SyncState
  import opened Walker
  import opened Pruner

  /** How the body of a run ended: with its counters, or with the error that stopped it. */
  datatype Verdict = Finished(stats: Stats) | Aborted(error: SyncError)

  /** The destination and fingerprint table a run leaves behind, and its verdict. */
  datatype RunResult = RunResult(dest: Tree, store: Table, verdict: Verdict)

  /**
    The walk starts from the destination with its root ensured (creating
    the root is creating a single directory, as it has nothing above it in
    the tree), zero counters and nothing visited.
  */
  function Start(dest: Tree, store: Table, env: Env): RunState {
    RunState(if [] in dest then dest else dest[[] := DirNode(DirStamp(env))], store, NoStats, {})
  }

  /** Ensuring the root adds at most the root itself, as a directory, and keeps every existing node. */
  lemma StartGrows(dest: Tree, store: Table, env: Env)
    ensures forall q :: q in dest ==> q in Start(dest, store, env).dest && Start(dest, store, env).dest[q] == dest[q]
    ensures GrowsAlong(dest, Start(dest, store, env).dest, [], false)
  {
  }

  /** The walk pass of a run, against the fingerprints loaded when the run began. */
  function WalkOf(dest: Tree, store: Table, task: Task, env: Env): Outcome {
    Walk(env, task, Snapshot(store, task.id), Start(dest, store, env), env.walk)
  }

  /** The paths that had a fingerprint when the run began and that the walk did not visit. */
  function StaleEntries(store: Table, task: Task, env: Env): set<Path> {
    Orphans(TaskPaths(store, task.id), Visits(env.walk))
  }

  /** The body of executeSync's try block. */
  function Synchronise(dest: Tree, store: Table, task: Task, env: Env): (r: RunResult)
    // a missing source root fails the run before anything is touched
    ensures !env.sourceExists ==> r == RunResult(dest, store, Aborted(SourceMissing))
    // a completed run is one whose walk and then prune pass went through
    ensures r.verdict.Finished? ==>
      && env.sourceExists && WalkOf(dest, store, task, env).Proceed?
      && var p := Prune(env, task.id, TaskPaths(store, task.id), WalkOf(dest, store, task, env).state);
      && p.Proceed? && r == RunResult(p.state.dest, p.state.store, Finished(p.state.stats))
  {
    if !env.sourceExists then RunResult(dest, store, Aborted(SourceMissing))
    else if [] !in dest && MakeDirs([]) in env.faults then RunResult(dest, store, Aborted(IoFailure(MakeDirs([]))))
    else
      match WalkOf(dest, store, task, env)
      case Halt(s, e) => RunResult(s.dest, s.store, Aborted(e))
      case Proceed(s) =>
        var order := TaskPaths(store, task.id);
        match Prune(env, task.id, order, s)
        case Halt(s', e) => RunResult(s'.dest, s'.store, Aborted(e))
        case Proceed(s') => RunResult(s'.dest, s'.store, Finished(s'.stats))
  }

  /**
    A completed run counted every file of the walk as scanned and each of
    them exactly once as copied, updated or skipped; the walk reported no
    unreadable entry.
  */
  lemma CompletedRunCounts(dest: Tree, store: Table, task: Task, env: Env)
    ensures var v := Synchronise(dest, store, task, env).verdict;
      v.Finished? ==>
      && Balanced(v.stats)
      && v.stats.scanned == FileCount(env.walk)
      && (forall e :: e in env.walk ==> !e.VisitFailed?)
  {
    if Synchronise(dest, store, task, env).verdict.Finished? {
      FinishedRun(dest, store, task, env);
      var w := WalkOf(dest, store, task, env);
      PruneCountsDeletions(env, task.id, TaskPaths(store, task.id), w.state);
    }
  }

  /**
    A run finishes exactly when its walk and then its prune pass go
    through; it ends with the state the prune pass leaves, from a walk
    that visited exactly the walk's paths.
  */
  lemma FinishedRun(dest: Tree, store: Table, task: Task, env: Env)
    requires Synchronise(dest, store, task, env).verdict.Finished?
    ensures var w := WalkOf(dest, store, task, env);
      && env.sourceExists && w.Proceed? && w.state.visited == Visits(env.walk)
      && var p := Prune(env, task.id, TaskPaths(store, task.id), w.state);
      && p.Proceed?
      && Synchronise(dest, store, task, env) == RunResult(p.state.dest, p.state.store, Finished(p.state.stats))
  {
    assert Start(dest, store, env).visited == {};
  }

  /** Session status (SyncStatus). Cancelled exists in the schema but no run produces it. */
  datatype Status = Running | Completed | Failed | Cancelled

  /** The session record (SyncLog); details holds the number of files the summary line reports. */
  datatype Session = Session(
    task: TaskId,
    start: int,
    end: Option<int>,
    status: Status,
    stats: Stats,
    error: Option<SyncError>,
    details: Option<nat>)

  /** The record saved when a run starts. */
  function Opened(task: TaskId, now: int): Session {
    Session(task, now, None, Running, NoStats, None, None)
  }

  /**
    The record saved when a run ends: Completed with the counters and the
    summary, or Failed with the error (the counters keep the zeroes the
    record was opened with).
  */
  function Finalise(s: Session, v: Verdict, end: int): (r: Session)
    ensures r.task == s.task && r.start == s.start && r.end == Some(end)
    ensures r.status == Completed <==> v.Finished?
    ensures r.status == Failed <==> v.Aborted?
    ensures v.Finished? ==> r.stats == v.stats && r.details == Some(v.stats.scanned) && r.error == s.error
    ensures v.Aborted? ==> r.error == Some(v.error) && r.stats == s.stats && r.details == s.details
  {
    match v
    case Finished(stats) => s.(end := Some(end), status := Completed, stats := stats, details := Some(stats.scanned))
    case Aborted(e) => s.(end := Some(end), status := Failed, error := Some(e))
  }

  /** Everything executeSync reads and writes. */
  datatype World = World(dest: Tree, store: Table, logs: seq<Session>, guard: Guard)

  /** isSyncRunning. */
  predicate IsSyncRunning(w: World, id: TaskId) {
    IsClaimed(w.guard, id)
  }

  /**
    The head of executeSync: claim the id; on success save a Running
    session. Only a task that is not running gets in, and then it is
    running and nothing else changes.
  */
  function BeginSync(w: World, task: Task, now: int): (r: Option<World>)
    ensures r.Some? <==> !IsSyncRunning(w, task.id)
    ensures r.Some? ==>
      && IsSyncRunning(r.value, task.id)
      && r.value.logs == w.logs + [Opened(task.id, now)]
      && r.value.dest == w.dest && r.value.store == w.store
      && forall id :: id != task.id ==> (IsSyncRunning(r.value, id) <==> IsSyncRunning(w, id))
  {
    var (claimed, g) := TryClaim(w.guard, task.id);
    if !claimed then None
    else Some(w.(guard := g, logs := w.logs + [Opened(task.id, now)]))
  }

  /** The rest of executeSync: run, finalise session k, and (finally) release the claim. */
  function FinishSync(w: World, task: Task, env: Env, k: nat): World
    requires k < |w.logs|
  {
    var res := Synchronise(w.dest, w.store, task, env);
    var done := Finalise(w.logs[k], res.verdict, env.clock.start + env.clock.elapsed);
    World(res.dest, res.store, w.logs[k := done], Release(w.guard, task.id))
  }

  /** executeSync: the terminal session, or None when a run of the task is already in progress. */
  function ExecuteSync(w: World, task: Task, env: Env): (r: (Option<Session>, World))
    // already running: nothing at all happens and no session is created
    ensures IsSyncRunning(w, task.id) ==> r == (None, w)
    // otherwise exactly one session is created, and it is terminal, timed and the one returned
    ensures !IsSyncRunning(w, task.id) ==>
      && r.0.Some?
      && r.1.logs == w.logs + [r.0.value]
      && r.0.value.task == task.id
      && r.0.value.start == env.clock.start
      && (r.0.value.status == Completed || r.0.value.status == Failed)
      && r.0.value.end.Some? && r.0.value.end.value >= r.0.value.start
    // the claim is released whatever the outcome, and no other task's claim changes
    ensures !IsSyncRunning(r.1, task.id) || r.0.None?
    ensures r.1.guard == w.guard
    // a completed session carries balanced counters; a failed one carries an error and zero counters
    ensures r.0.Some? && r.0.value.status == Completed ==>
      && Balanced(r.0.value.stats) && r.0.value.stats.scanned == FileCount(env.walk)
      && r.0.value.error.None? && r.0.value.details == Some(r.0.value.stats.scanned)
    ensures r.0.Some? && r.0.value.status == Failed ==> r.0.value.error.Some? && r.0.value.stats == NoStats
  {
    match BeginSync(w, task, env.clock.start)
    case None => (None, w)
    case Some(w1) =>
      var k := |w.logs|;
      var w2 := FinishSync(w1, task, env, k);
      CompletedRunCounts(w1.dest, w1.store, task, env);
      ClaimThenRelease(w.guard, task.id);
      assert w2.logs == w.logs + [w2.logs[k]];
      (Some(w2.logs[k]), w2)
  }

  /**
    A run that is let in records the outcome of its body: the world takes
    the destination and fingerprint table the body left, and the session
    is Completed with the body's counters exactly when the body finished,
    and Failed with the body's error otherwise.
  */
  lemma ExecuteSyncRecords(w: World, task: Task, env: Env)
    requires !IsSyncRunning(w, task.id)
    ensures var r := ExecuteSync(w, task, env);
      var res := Synchronise(w.dest, w.store, task, env);
      && r.0.Some? && r.1.dest == res.dest && r.1.store == res.store
      && (r.0.value.status == Completed <==> res.verdict.Finished?)
      && (res.verdict.Finished? ==> r.0.value.stats == res.verdict.stats)
      && (res.verdict.Aborted? ==> r.0.value.error == Some(res.verdict.error))
  {
    var w1 := BeginSync(w, task, env.clock.start).value;
    assert w1.dest == w.dest && w1.store == w.store;
  }

  /**
    Mutual exclusion: while a run holds its task's claim (between its
    start and its end), another executeSync of the same task is turned
    away without a session and without touching anything, and the task
    reports as running.
  */
  lemma SecondRunIsTurnedAway(w: World, task: Task, now: int, other: Task, env: Env)
    requires BeginSync(w, task, now).Some?
    requires other.id == task.id
    ensures var w1 := BeginSync(w, task, now).value;
      && IsSyncRunning(w1, task.id)
      && ExecuteSync(w1, other, env) == (None, w1)
  {
  }

  /**
    isSyncRunning after executeSync returns: the task reports as running
    afterwards exactly when it already was before the call (a run that was
    let in always releases its claim; one turned away touches nothing).
  */
  lemma RunningOnlyWhileClaimed(w: World, task: Task, env: Env)
    ensures IsSyncRunning(ExecuteSync(w, task, env).1, task.id) <==> IsSyncRunning(w, task.id)
  {
  }

  /** Runs of different tasks do not contend: a claim held for one task does not block another. */
  lemma OtherTasksAreNotBlocked(w: World, task: Task, now: int, other: Task, env: Env)
    requires BeginSync(w, task, now).Some?
    requires other.id != task.id && !IsSyncRunning(w, other.id)
    ensures ExecuteSync(BeginSync(w, task, now).value, other, env).0.Some?
  {
  }
}

=== FILE: sync_state.dfy ===
/**
  The state a synchronisation run threads through its walk and prune
  passes, the run's environment, and its counters.
*/
module SyncState {
  import opened Common
  import opened Hex
  import opened FileSystem
  import opened FingerprintStore

  /** The parts of a task the engine reads. */
  datatype Task = Task(id: TaskId, useChecksum: bool)

  /** Why a run failed. The source reports all of them as one exception type. */
  datatype SyncError =
    | SourceMissing
    | WalkFailed(path: Path)
    | IoFailure(op: IoOp)
    | DuplicateFingerprint(path: Path)

  /** The clock readings of a run: its start, and how long after it the run ended. */
  datatype Clock = Clock(start: int, elapsed: nat)

  /**
    Everything a run takes from outside the engine: whether the source root
    exists, the depth-first walk of the source tree, which filesystem
    operations fail, the digest function, and the clock.
  */
  datatype Env = Env(
    sourceExists: bool,
    walk: seq<WalkEntry>,
    faults: set<IoOp>,
    digest: seq<byte> -> Digest,
    clock: Clock)

  /** The run's counters (SyncStats). */
  datatype Stats = Stats(scanned: nat, copied: nat, updated: nat, deleted: nat, skipped: nat, totalBytes: nat)

  const NoStats: Stats := Stats(0, 0, 0, 0, 0, 0)

  /** Every scanned file was counted exactly once as copied, updated or skipped. */
  predicate Balanced(s: Stats) {
    s.scanned == s.copied + s.updated + s.skipped
  }

  /** Destination tree, fingerprint table, counters, and the paths visited so far. */
  datatype RunState = RunState(dest: Tree, store: Table, stats: Stats, visited: set<Path>)

  /** A pass either goes on with a new state or stops with the state reached and an error. */
  datatype Outcome = Proceed(state: RunState) | Halt(state: RunState, error: SyncError)

  /** The attributes a directory created during the run reports. */
  function DirStamp(env: Env): Attrs {
    Attrs(0, env.clock.start)
  }

  /**
    The source file's current checksum (calculateChecksum): 64 hex
    characters that decode back to the digest of its content, or the I/O
    error reading it.
  */
  function CurrentChecksum(env: Env, p: Path, data: seq<byte>): (r: Result<string, SyncError>)
    ensures r.Ok? <==> HashOf(p) !in env.faults
    ensures r.Ok? ==> |r.value| == 2 * DigestLength && FromHex(r.value) == Some(env.digest(data))
    ensures r.Err? ==> r.error == IoFailure(HashOf(p))
  {
    if HashOf(p) in env.faults then Err(IoFailure(HashOf(p))) else Ok(ChecksumOf(env.digest(data)))
  }

  /** The destination attributes the change detector sees at p. */
  function DestAttrs(t: Tree, p: Path): Option<Attrs> {
    if p in t then Some(t[p].attrs) else None
  }
}

=== FILE: walker.dfy ===
/**
  The walk pass of a run: the source walk's entries folded, in order,
  over the run state. A directory entry mirrors the directory at the
  destination; a file entry is sorted into copied, updated or skipped,
  and a copy refreshes the file's fingerprint.
*/
module Walker {
  import opened Common
  import opened Hex
  import opened FileSystem
  import opened FingerprintStore
  import opened ChangeDetector
  import opened SyncState

  /** preVisitDirectory: mirror a directory at the destination; the root itself is passed over. */
  function VisitDirectory(env: Env, st: RunState, p: Path): (r: Outcome)
    ensures p == [] ==> r == Proceed(st)
    ensures p != [] ==> r.state.visited == st.visited + {p}
    ensures r.state.store == st.store && r.state.stats == st.stats
    ensures r.Halt? <==> p != [] && p !in st.dest && (MakeDirs(p) in env.faults || !DirsAlong(st.dest, p))
    ensures r.Halt? ==> r.error == IoFailure(MakeDirs(p))
    ensures r.Proceed? && p != [] ==> p in r.state.dest
    ensures forall q :: q in st.dest ==> q in r.state.dest && r.state.dest[q] == st.dest[q]
    ensures GrowsAlong(st.dest, r.state.dest, p, false)
  {
    if p == [] then Proceed(st)
    else
      var st1 := st.(visited := st.visited + {p});
      if p in st.dest then Proceed(st1)
      else if MakeDirs(p) in env.faults then Halt(st1, IoFailure(MakeDirs(p)))
      else
        match CreateDirectories(st.dest, p, DirStamp(env))
        case None => Halt(st1, IoFailure(MakeDirs(p)))
        case Some(d) => Proceed(st1.(dest := d))
  }

  /** The counters after a file is copied: as new when it had no fingerprint, as an update otherwise. */
  function CountCopy(s: Stats, isNew: bool, size: nat): Stats {
    var s' := if isNew then s.(copied := s.copied + 1) else s.(updated := s.updated + 1);
    s'.(totalBytes := s.totalBytes + size)
  }

  /**
    The fingerprint for p was refreshed with f's size and modification
    time and with the given checksum (or kept its previous one when none
    is given), and nothing else in the table changed.
  */
  predicate Refreshes(before: Table, after: Table, task: TaskId, p: Path, f: SourceFile, checksum: Option<string>) {
    && |RowsAt(after, task, p)| == 1
    && RowsAt(after, task, p)[0].size == f.attrs.size
    && RowsAt(after, task, p)[0].lastModified == f.attrs.mtime
    && RowsAt(after, task, p)[0].checksum == (if checksum.Some? then checksum else PriorChecksum(before, task, p))
    && Without(after, task, p) == Without(before, task, p)
  }

  /** The checksum a copy writes: the current one, when checksums are on and it could be computed. */
  function WrittenChecksum(env: Env, task: Task, p: Path, f: SourceFile): Option<string> {
    var current := CurrentChecksum(env, p, f.data);
    if task.useChecksum && current.Ok? then Some(current.value) else None
  }

  /** A skipped file: one more scanned and skipped, and nothing but the counters changes. */
  predicate Skipped(st: RunState, st': RunState) {
    && st'.stats == st.stats.(scanned := st.stats.scanned + 1, skipped := st.stats.skipped + 1)
    && st'.dest == st.dest && st'.store == st.store
  }

  /**
    A copied file: one more scanned and one more copied (no prior
    fingerprint) or updated (a prior fingerprint), its size added to the
    byte count, the destination holding the source file, and its
    fingerprint refreshed.
  */
  predicate Copied(st: RunState, st': RunState, task: TaskId, p: Path, f: SourceFile, isNew: bool,
                   checksum: Option<string>) {
    && st'.stats.scanned == st.stats.scanned + 1
    && st'.stats.copied == st.stats.copied + (if isNew then 1 else 0)
    && st'.stats.updated == st.stats.updated + (if isNew then 0 else 1)
    && st'.stats.skipped == st.stats.skipped && st'.stats.deleted == st.stats.deleted
    && st'.stats.totalBytes == st.stats.totalBytes + f.attrs.size
    && p in st'.dest && st'.dest[p] == FileNode(f.attrs, f.data)
    && Refreshes(st.store, st'.store, task, p, f, checksum)
  }

  /**
    visitFile: decide on the file with the fingerprint loaded at the start
    of the run; on a copy, create the parent directories, copy the content
    and its attributes over any existing destination, count it, and
    refresh its fingerprint (with the current checksum when checksums are
    on and it could be computed).
  */
  function VisitFile(env: Env, task: Task, snap: map<Path, Fingerprint>, st: RunState, p: Path, f: SourceFile): (r: Outcome)
    ensures r.state.visited == st.visited + {p}
    ensures r.Proceed? ==>
      && r.state.stats.scanned == st.stats.scanned + 1
      && r.state.stats.deleted == st.stats.deleted
      && (Balanced(st.stats) ==> Balanced(r.state.stats))
    ensures r.Halt? ==> r.state.store == st.store
    ensures forall q :: q in st.dest && q != p ==> q in r.state.dest && r.state.dest[q] == st.dest[q]
    ensures Unique(st.store) ==> Unique(r.state.store)
    ensures GrowsAlong(st.dest, r.state.dest, p, true)
  {
    var st1 := st.(visited := st.visited + {p}, stats := st.stats.(scanned := st.stats.scanned + 1));
    var existing := Get(snap, p);
    var current := CurrentChecksum(env, p, f.data);
    var decision := ShouldCopy(f.attrs, DestAttrs(st.dest, p), existing, task.useChecksum, current);
    if decision.Err? then Halt(st1, decision.error)
    else if !decision.value then Proceed(st1.(stats := st1.stats.(skipped := st1.stats.skipped + 1)))
    else CopyOver(env, task, st1, p, f, existing.None?, WrittenChecksum(env, task, p, f))
  }

  /**
    A file the change detector passes over is skipped, touching nothing but
    the counters; any other file the walk gets past is copied (new or
    updated), with its fingerprint refreshed.
  */
  lemma VisitFileOutcome(env: Env, task: Task, snap: map<Path, Fingerprint>, st: RunState, p: Path, f: SourceFile)
    ensures var r := VisitFile(env, task, snap, st, p, f);
      var decision := ShouldCopy(f.attrs, DestAttrs(st.dest, p), Get(snap, p), task.useChecksum,
                                 CurrentChecksum(env, p, f.data));
      && (decision == Ok(false) ==> r.Proceed? && Skipped(st, r.state))
      && (r.Proceed? && decision != Ok(false) ==>
            decision == Ok(true) && Copied(st, r.state, task.id, p, f, p !in snap, WrittenChecksum(env, task, p, f)))
  {
    var current := CurrentChecksum(env, p, f.data);
    var decision := ShouldCopy(f.attrs, DestAttrs(st.dest, p), Get(snap, p), task.useChecksum, current);
    if decision == Ok(true) {
      CopyBranch(env, task, snap, st, p, f);
    }
  }

  /**
    A file visit stops only on an I/O failure, a destination whose shape the
    copy cannot go through (a file on the way to the parent directory, or a
    non-empty directory where the file goes), or an ambiguous fingerprint
    lookup.
  */
  lemma VisitFileHalts(env: Env, task: Task, snap: map<Path, Fingerprint>, st: RunState, p: Path, f: SourceFile)
    ensures VisitFile(env, task, snap, st, p, f).Halt? ==>
      || HashOf(p) in env.faults || MakeDirs(Parent(p)) in env.faults || CopyTo(p) in env.faults
      || !DirsAlong(st.dest, Parent(p)) || !Childless(st.dest, p)
      || |RowsAt(st.store, task.id, p)| > 1
  {
  }

  lemma CopyBranch(env: Env, task: Task, snap: map<Path, Fingerprint>, st: RunState, p: Path, f: SourceFile)
    requires ShouldCopy(f.attrs, DestAttrs(st.dest, p), Get(snap, p), task.useChecksum,
                        CurrentChecksum(env, p, f.data)) == Ok(true)
    ensures var r := VisitFile(env, task, snap, st, p, f);
      r.Proceed? ==> Copied(st, r.state, task.id, p, f, p !in snap, WrittenChecksum(env, task, p, f))
  {
  }

  function CopyOver(env: Env, task: Task, st: RunState, p: Path, f: SourceFile, isNew: bool,
                    checksum: Option<string>): (r: Outcome)
    ensures r.state.visited == st.visited
    ensures r.Proceed? ==> r.state.stats == CountCopy(st.stats, isNew, f.attrs.size)
    ensures r.Proceed? ==> p in r.state.dest && r.state.dest[p] == FileNode(f.attrs, f.data)
    ensures r.Proceed? ==> Refreshes(st.store, r.state.store, task.id, p, f, checksum)
    ensures r.Halt? ==> r.state.store == st.store
    ensures r.Proceed? <==>
      && MakeDirs(Parent(p)) !in env.faults && DirsAlong(st.dest, Parent(p))
      && CopyTo(p) !in env.faults && Childless(st.dest, p)
      && |RowsAt(st.store, task.id, p)| <= 1
    ensures forall q :: q in st.dest && q != p ==> q in r.state.dest && r.state.dest[q] == st.dest[q]
    ensures Unique(st.store) ==> Unique(r.state.store)
    ensures GrowsAlong(st.dest, r.state.dest, p, true)
  {
    var parent := Parent(p);
    if MakeDirs(parent) in env.faults then Halt(st, IoFailure(MakeDirs(parent)))
    else
      match CreateDirectories(st.dest, parent, DirStamp(env))
      case None => Halt(st, IoFailure(MakeDirs(parent)))
      case Some(d1) =>
        var r := CopyInto(env, task, st.(dest := d1), p, f, isNew, checksum);
        assert Childless(d1, p) <==> Childless(st.dest, p) by { ParentKeepsChildless(st.dest, d1, p); }
        CopyIntoProceeds(env, task, st.(dest := d1), p, f, isNew, checksum);
        assert GrowsAlong(st.dest, d1, p, true) by { ParentGrowth(st.dest, d1, p); }
        CopyKeeps(st.dest, d1, r.state.dest, p, FileNode(f.attrs, f.data));
        r
  }

  /**
    Files.copy with REPLACE_EXISTING once the parent directory exists: it
    fails when the target is a directory that is not empty; then the
    file is counted and its fingerprint refreshed.
  */
  function CopyInto(env: Env, task: Task, st: RunState, p: Path, f: SourceFile, isNew: bool,
                    checksum: Option<string>): (r: Outcome)
    ensures r.state.visited == st.visited
    ensures r.Proceed? ==> r.state.stats == CountCopy(st.stats, isNew, f.attrs.size)
    ensures r.Proceed? ==> p in r.state.dest && r.state.dest[p] == FileNode(f.attrs, f.data)
    ensures r.Proceed? ==> Refreshes(st.store, r.state.store, task.id, p, f, checksum)
    ensures r.Halt? ==> r.state.store == st.store
    ensures r.state.dest == st.dest || r.state.dest == st.dest[p := FileNode(f.attrs, f.data)]
    ensures Unique(st.store) ==> Unique(r.state.store)
  {
    if CopyTo(p) in env.faults || !Childless(st.dest, p) then Halt(st, IoFailure(CopyTo(p)))
    else
      var d2 := st.dest[p := FileNode(f.attrs, f.data)];
      var s2 := CountCopy(st.stats, isNew, f.attrs.size);
      match UpdateFingerprint(st.store, task.id, p, f.attrs, env.clock.start, checksum)
      case None => Halt(st.(dest := d2, stats := s2), DuplicateFingerprint(p))
      case Some(t) => Proceed(RunState(d2, t, s2, st.visited))
  }

  /** The copy goes through exactly when it does not fail, the target is no non-empty directory, and the fingerprint lookup is unambiguous. */
  lemma CopyIntoProceeds(env: Env, task: Task, st: RunState, p: Path, f: SourceFile, isNew: bool, checksum: Option<string>)
    ensures CopyInto(env, task, st, p, f, isNew, checksum).Proceed?
      <==> CopyTo(p) !in env.faults && Childless(st.dest, p) && |RowsAt(st.store, task.id, p)| <= 1
  {
  }

  /** Creating directories along p and then possibly placing a node at p keeps every other node and grows along p. */
  lemma CopyKeeps(t: Tree, d1: Tree, t2: Tree, p: Path, node: Node)
    requires GrowsAlong(t, d1, p, true)
    requires forall q :: q in t ==> q in d1 && d1[q] == t[q]
    requires t2 == d1 || t2 == d1[p := node]
    ensures forall q :: q in t && q != p ==> q in t2 && t2[q] == t[q]
    ensures GrowsAlong(t, t2, p, true)
  {
    assert PrefixOf(p, p);
  }

  /** Growth along a file's parent directory is growth along the file. */
  lemma ParentGrowth(t: Tree, t': Tree, p: Path)
    requires GrowsAlong(t, t', Parent(p), false)
    ensures GrowsAlong(t, t', p, true)
  {
    forall q | q in t' && !(q in t && t'[q] == t[q]) ensures PrefixOf(q, p) {
      PrefixOfParent(q, p);
    }
  }

  /** Creating the parent directories adds nothing below the file itself. */
  lemma ParentKeepsChildless(t: Tree, t': Tree, p: Path)
    requires t'.Keys == t.Keys + Ancestry(Parent(p))
    ensures Childless(t', p) <==> Childless(t, p)
  {
    forall q | q in Ancestry(Parent(p)) ensures !Below(p, q) {
      var k :| 0 <= k <= |Parent(p)| && q == Parent(p)[..k];
    }
  }

  /** One walk entry; an entry the walk could not read ends the run. */
  function VisitEntry(env: Env, task: Task, snap: map<Path, Fingerprint>, st: RunState, e: WalkEntry): (r: Outcome)
    ensures e.VisitFailed? ==> r == Halt(st, WalkFailed(e.path))
    ensures e.DirVisit? && e.path == [] ==> r == Proceed(st)
    ensures !e.VisitFailed? && !(e.DirVisit? && e.path == []) ==> r.state.visited == st.visited + {e.path}
    ensures GrowsAlong(st.dest, r.state.dest, e.path, e.FileVisit?)
  {
    match e
    case DirVisit(p) => VisitDirectory(env, st, p)
    case FileVisit(p, f) => VisitFile(env, task, snap, st, p, f)
    case VisitFailed(p) => Halt(st, WalkFailed(p))
  }

  /** The number of files among the entries. */
  function FileCount(entries: seq<WalkEntry>): nat {
    if |entries| == 0 then 0 else (if entries[0].FileVisit? then 1 else 0) + FileCount(entries[1..])
  }

  /** The paths the walk marks as processed: every file, and every directory but the root. */
  function Visits(entries: seq<WalkEntry>): set<Path> {
    if |entries| == 0 then {}
    else
      var e := entries[0];
      (if e.FileVisit? || (e.DirVisit? && e.path != []) then {e.path} else {}) + Visits(entries[1..])
  }

  /** Files.walkFileTree with the visitor above. */
  function Walk(env: Env, task: Task, snap: map<Path, Fingerprint>, st: RunState, entries: seq<WalkEntry>): (r: Outcome)
    ensures r.Proceed? ==> forall e :: e in entries ==> !e.VisitFailed?
    ensures r.Proceed? ==> r.state.visited == st.visited + Visits(entries)
    ensures r.Proceed? ==> r.state.stats.scanned == st.stats.scanned + FileCount(entries)
    ensures r.Proceed? ==> r.state.stats.deleted == st.stats.deleted
    ensures r.Proceed? && Balanced(st.stats) ==> Balanced(r.state.stats)
    ensures Unique(st.store) ==> Unique(r.state.store)
    decreases |entries|
  {
    if |entries| == 0 then Proceed(st)
    else
      match VisitEntry(env, task, snap, st, entries[0])
      case Halt(s, e) => Halt(s, e)
      case Proceed(s) => Walk(env, task, snap, s, entries[1..])
  }
}
